=== FILE: README.md ===
# Q-learning line follower — a Dafny model

This project models the learning core of a ROS/Gazebo line-following robot.
The core has three parts:

- **The `QLearn` agent.** It keeps a sparse Q-table keyed by (state string, action).
  - It chooses actions by an ε-greedy arg-max. When it explores, every Q-value gets uniform noise scaled by the largest magnitude in the row.
  - Tied maxima are broken by `random.choice`.
  - It learns with the temporal-difference update, using a "first visit stores the raw reward" rule.
- **The `Gazebo_Lab06_Env` decision logic.**
  - The camera frame is cut into ten columns. The column holding the line's centroid becomes a one-hot state vector.
  - A miss counter ends the episode after more than 30 line-less frames.
  - Each action has a fixed velocity command and a fixed reward: 4 forward, 3 left, 2 right, and -200 on the step that ends the episode.
- **The training script's loop.**
  - ε decays at the start of every episode.
  - State keys are built as `''.join(map(str, observation))`.
  - The loop tracks the cumulative reward and the highest reward, writes a "best so far" checkpoint and a checkpoint every fifth episode, and records each episode's length.
  - At the end it prints two scores: the overall mean episode length and the mean of the best 100.

All randomness and camera images come in as explicit inputs:

- `QLearn.Draws` holds the uniform numbers one `chooseAction` call consumes.
- `GazeboEnv.Frame` holds what the OpenCV pipeline extracts from an image: whether any line pixel survived, the centroid column `cX`, and the image width.
- `Training.EpisodeInput` holds the reset frame plus one (draws, frame) pair per step.

The modules follow the program's structure:

| file | module | models |
|---|---|---|
| `wrappers.dfy` | `Wrappers` | `Option` |
| `real_seq.dfy` | `RealSeq` | `max`, `min`, `list.index`, the tie comprehension, `random.choice` |
| `qlearn.dfy` | `QLearn` | `qlearn.py` |
| `gazebo_env.dfy` | `GazeboEnv` | `gazebo_env_lab06.py` |
| `state_key.dfy` | `StateKey` | the state key `''.join(map(str, obs))` |
| `stats.dfy` | `Stats` | the closing scores |
| `training.dfy` | `Training` | the episode loop of `gazebo_lab06_ex.py` |

Some behaviour is worth calling out:

- **The miss counter is never reset when the line is seen again.** The comment on the environment says an episode ends when the line "is not detected for more than 30 frames". The code instead counts *all* line-less frames since `reset`, including the frame `reset` itself reads. The model follows the code. `GazeboEnv.TimeoutCountsEveryMiss` and `GazeboEnv.MissesAreNotConsecutive` make this explicit.
- **Ties at a column boundary go to the lower column.** A centroid exactly on a boundary satisfies both neighbouring closed intervals, and the loop takes the first one. `GazeboEnv.LineColumnClosedForm` gives the column in closed form: `ceil(10*cX/cols) - 1`.
- **The noise interval needs two cases.** When every Q-value of the row is 0, the noise magnitude is 0 and the values are left unchanged. The half-open interval `[q - mag/2, q + mag/2)` is empty in that case, so `QLearn.Perturb` states the zero and non-zero magnitudes separately.
- **State keys are not injective in general.** They are injective on 0/1 vectors, which is all the environment produces. `[1, 0]` and `[10]` share the key `"10"`.

## Model

| member | source | states |
|---|---|---|
| RealSeq.Max | examples/gazebo_lab06_ex/qlearn.py:78 | the result bounds every element of the row and is one of them |
| RealSeq.Min | examples/gazebo_lab06_ex/qlearn.py:91 | the result is below every element and is one of them |
| RealSeq.IndexOf | examples/gazebo_lab06_ex/qlearn.py:102 | `q.index(maxQ)` is a position holding the value, and no earlier position holds it |
| RealSeq.Ties | examples/gazebo_lab06_ex/qlearn.py:97-99 | the tie list holds exactly the positions holding the value, in increasing order |
| RealSeq.Pick | examples/gazebo_lab06_ex/qlearn.py:100 | the draw picks one of the `k` candidates |
| RealSeq.PickInterval | examples/gazebo_lab06_ex/qlearn.py:100 | candidate `j` is picked exactly for draws in `[j/k, (j+1)/k)`, so the choice is uniform |
| QLearn.Init | examples/gazebo_lab06_ex/qlearn.py:24-29 | the constructor stores ε, α, γ and the actions; every (state, action) pair of the new table reads 0.0 |
| QLearn.GetQ | examples/gazebo_lab06_ex/qlearn.py:67-68 | `q.get((state, action), 0.0)`: the stored value for a pair in the table, 0.0 for a pair not in it |
| QLearn.GetQReadsLastWrite | examples/gazebo_lab06_ex/qlearn.py:67-68 | `getQ` reads back the value last written for a pair, a write to another pair does not change what it reads, and an empty table reads 0.0 for every pair |
| QLearn.QValues | examples/gazebo_lab06_ex/qlearn.py:77 | one value per action, in action order, each being `getQ` (0.0 for unseen pairs) |
| QLearn.Magnitude | examples/gazebo_lab06_ex/qlearn.py:91-92 | `mag` is non-negative, bounds the absolute value of every Q-value of the row, and is attained by one of them up to sign |
| QLearn.Shift | examples/gazebo_lab06_ex/qlearn.py:93 | one perturbed value lies in `[x - mag/2, x + mag/2]`, strictly below the top when `mag > 0`, and equals `x` when `mag = 0`; `QLearn.ShiftUniform` states where in that interval the draw puts it |
| QLearn.Perturb | examples/gazebo_lab06_ex/qlearn.py:93 | exploring keeps the row length; each value moves by less than half the magnitude upwards and at most half downwards; a zero row is left unchanged; `QLearn.PerturbUniform` states that each entry moves by its own draw |
| QLearn.ShiftUniform | examples/gazebo_lab06_ex/qlearn.py:93 | for `mag > 0` the noise is uniform over `[x - mag/2, x + mag/2)`: the value lands in the `[a, b)` fraction of that interval exactly when `random()` falls in `[a, b)` |
| QLearn.PerturbUniform | examples/gazebo_lab06_ex/qlearn.py:91-93 | for a row with non-zero magnitude, entry `i` of the explored row lands in the `[a, b)` fraction of its interval exactly when its own draw `noise[i]` falls in `[a, b)` |
| QLearn.ArgMax | examples/gazebo_lab06_ex/qlearn.py:97-102 | the chosen position holds a maximum and is one of the tied positions; with a unique maximum it is the first position holding it |
| QLearn.ChooseAction | examples/gazebo_lab06_ex/qlearn.py:76-107 | the action is `actions[i]` for the returned index; no value of the decision row exceeds the chosen one; the row is the table row when the exploration draw is ≥ ε and its noisy version otherwise |
| QLearn.GreedyChoiceIsBest | examples/gazebo_lab06_ex/qlearn.py:77-80 | when not exploring, no action has a larger table value than the chosen one |
| QLearn.UniqueMaxIsDeterministic | examples/gazebo_lab06_ex/qlearn.py:97-102 | a unique maximum is chosen whatever the tie draw is |
| QLearn.TieBreakIsUniform | examples/gazebo_lab06_ex/qlearn.py:98-100 | with `k > 1` tied maxima, the `j`-th one is chosen exactly for tie draws in `[j/k, (j+1)/k)` |
| QLearn.LearnQ | examples/gazebo_lab06_ex/qlearn.py:129-134 | only the table changes; the key set gains exactly the updated pair; every other entry is untouched; a first visit stores the reward itself |
| QLearn.Learn | examples/gazebo_lab06_ex/qlearn.py:118-120 | the same frame and first-visit guarantees as `learnQ`, which it calls |
| QLearn.BestNext | examples/gazebo_lab06_ex/qlearn.py:119 | names an action whose value in the next state no other action's value exceeds, which is where `maxqnew` is attained |
| QLearn.LearnTargetsBestNext | examples/gazebo_lab06_ex/qlearn.py:118-120 | a repeat visit moves the value to `old + α·(reward + γ·best - old)`, where `best` is the table value of an action that no other action beats in the next state |
| QLearn.LearnQBlends | examples/gazebo_lab06_ex/qlearn.py:133-134 | with α in [0,1], a repeat visit lands between the old value and the target |
| QLearn.FirstVisitIgnoresTarget | examples/gazebo_lab06_ex/qlearn.py:130-132 | on a first visit neither the target nor α matters: the pair holds the raw reward |
| QLearn.SecondVisitBlends | examples/gazebo_lab06_ex/qlearn.py:129-134 | two updates of a fresh pair give `r + α·(t2 - r)` |
| QLearn.OnlyUpdatedPairsChange | examples/gazebo_lab06_ex/qlearn.py:129-134 | after any sequence of updates, the keys are the old keys plus the updated pairs, and a pair never updated reads as before |
| QLearn.UnwrittenReadsZero | examples/gazebo_lab06_ex/qlearn.py:67-68 | for a fresh agent, every pair never updated reads 0.0, and the table holds exactly the updated pairs |
| QLearn.LearnTwiceExample | examples/gazebo_lab06_ex/qlearn.py:118-134 | learning reward 10 twice towards an unseen state leaves Q at 10 after each call |
| QLearn.UniqueMaxExample | examples/gazebo_lab06_ex/qlearn.py:97-104 | row [1, 1, 2] with ε = 0 always yields the third action |
| QLearn.TieExample | examples/gazebo_lab06_ex/qlearn.py:97-104 | row [2, 2, 1] with ε = 0 yields the first action for tie draws below 1/2, the second otherwise, and never the third |
| GazeboEnv.Scan | gym_gazebo/envs/gazebo_lab06/gazebo_env_lab06.py:89-99 | the scan returns the first column from `i` on whose closed interval holds `cX`, or nothing if none does |
| GazeboEnv.LineColumn | gym_gazebo/envs/gazebo_lab06/gazebo_env_lab06.py:89-99 | the lit column is the smallest column whose interval holds the centroid; there is none only when no column holds it |
| GazeboEnv.Observation | gym_gazebo/envs/gazebo_lab06/gazebo_env_lab06.py:71-99 | the state has ten slots, each 0 or 1, and slot `i` is 1 exactly when a line was found and its centroid's column is `i` |
| GazeboEnv.ObservationOneHot | gym_gazebo/envs/gazebo_lab06/gazebo_env_lab06.py:71-99 | at most one slot of the state is 1 |
| GazeboEnv.ProcessImage | gym_gazebo/envs/gazebo_lab06/gazebo_env_lab06.py:61-107 | a line-less frame adds one miss; a frame with a line adds none; the history is untouched; `done` holds exactly when the misses exceed 30 |
| GazeboEnv.Velocity | gym_gazebo/envs/gazebo_lab06/gazebo_env_lab06.py:128-139 | action 0 gives linear 0.4 and angular 0, action 1 gives angular 0.5, action 2 gives angular -0.25, and any other action a zero `Twist`; so only forward moves linearly, left turns positively and right negatively |
| GazeboEnv.Reward | gym_gazebo/envs/gazebo_lab06/gazebo_env_lab06.py:164-172 | the reward is -200 on the terminating step and negative on no other; otherwise it is 4 for forward, 3 for left and 2 for the rest |
| GazeboEnv.Step | gym_gazebo/envs/gazebo_lab06/gazebo_env_lab06.py:118-174 | the action is appended to the history; the miss count, `done`, the reward and the command follow the frame and the action; the state is the frame's observation |
| GazeboEnv.Reset | gym_gazebo/envs/gazebo_lab06/gazebo_env_lab06.py:177-218 | the history is emptied; the miss counter restarts at 0, or 1 if the first frame has no line; the state is that frame's observation |
| GazeboEnv.InColumnIff | gym_gazebo/envs/gazebo_lab06/gazebo_env_lab06.py:89-94 | column membership is equivalent to `j·cols ≤ 10·cX ≤ (j+1)·cols` |
| GazeboEnv.LineColumnClosedForm | gym_gazebo/envs/gazebo_lab06/gazebo_env_lab06.py:89-99 | for `0 ≤ cX ≤ cols` some column always matches, and it is `ceil(10·cX/cols) - 1` (0 for `cX = 0`) |
| GazeboEnv.LineInViewLightsItsColumn | gym_gazebo/envs/gazebo_lab06/gazebo_env_lab06.py:82-99 | a visible line inside the image lights its closed-form column |
| GazeboEnv.NoLineBlank | gym_gazebo/envs/gazebo_lab06/gazebo_env_lab06.py:71-102 | a frame without a line yields the all-zero state |
| GazeboEnv.TimeoutCountsEveryMiss | gym_gazebo/envs/gazebo_lab06/gazebo_env_lab06.py:101-105 | after a reset and any steps, the counter equals the total number of line-less frames of the episode, and the history equals the actions taken |
| GazeboEnv.MissesAreNotConsecutive | gym_gazebo/envs/gazebo_lab06/gazebo_env_lab06.py:101-102 | miss, line, miss after a reset with a line leaves the counter at 2, not 1 |
| StateKey.Key | examples/gazebo_lab06_ex/gazebo_lab06_ex.py:76 | `''.join(map(str, obs))`, also used for `nextState` on line 94: every entry adds at least one character, and when every entry is a single digit the key has exactly one character per entry, that digit |
| StateKey.BinaryKeyIsPositional | examples/gazebo_lab06_ex/gazebo_lab06_ex.py:76 | a 0/1 observation's key has one character per slot: '1' exactly where the slot is 1 |
| StateKey.BinaryKeyInjective | examples/gazebo_lab06_ex/gazebo_lab06_ex.py:76 | distinct 0/1 observations never share a key |
| StateKey.KeyAmbiguousForWideEntries | examples/gazebo_lab06_ex/gazebo_lab06_ex.py:94 | without a separator, `[1, 0]` and `[10]` share the key "10" |
| Stats.Insert | examples/gazebo_lab06_ex/gazebo_lab06_ex.py:130 | inserting into a sorted list keeps it sorted and adds exactly the element |
| Stats.Sort | examples/gazebo_lab06_ex/gazebo_lab06_ex.py:130 | `l.sort()` yields an ascending permutation |
| Stats.SumSort | examples/gazebo_lab06_ex/gazebo_lab06_ex.py:129-130 | sorting keeps the total of the step counts |
| Stats.Largest | examples/gazebo_lab06_ex/gazebo_lab06_ex.py:135 | `l[-100:]` after sorting: `k` sorted entries that, with the rest, make up the list, and none of which is below any entry left out |
| Stats.Best100AtLeastOverall | examples/gazebo_lab06_ex/gazebo_lab06_ex.py:133-135 | the best-100 score is never below the overall mean |
| Stats.ShortRunBest100IsOverall | examples/gazebo_lab06_ex/gazebo_lab06_ex.py:133-135 | with at most 100 episodes the two scores coincide |
| Stats.Overall | examples/gazebo_lab06_ex/gazebo_lab06_ex.py:133 | no score exactly for a run without episodes; otherwise the mean of all episode lengths |
| Stats.Best100 | examples/gazebo_lab06_ex/gazebo_lab06_ex.py:129-135 | no score exactly for a run without episodes; otherwise the mean of the `min(100, n)` largest lengths, as `Largest` characterises them |
| Stats.ReportAsWritten | examples/gazebo_lab06_ex/gazebo_lab06_ex.py:133-135 | the overall mean is printed, and the best-100 line raises instead of printing |
| Stats.Report | examples/gazebo_lab06_ex/gazebo_lab06_ex.py:133-135 | the intended report prints both scores, and the second is never the smaller |
| Stats.UnboundReduceLosesBest100 | examples/gazebo_lab06_ex/gazebo_lab06_ex.py:135 | on every non-empty run the as-written report agrees on the first line and loses the best-100 score the intended one prints |
| Training.InitialAgent | examples/gazebo_lab06_ex/gazebo_lab06_ex.py:47-48 | actions 0, 1, 2, ε = 0.9, α = 0.5, γ = 0.5, and an all-zero table |
| Training.Decay | examples/gazebo_lab06_ex/gazebo_lab06_ex.py:71-72 | above 0.05, ε is multiplied by 0.9986 and so strictly decreases, staying above 0.05·0.9986; at or below 0.05 it is unchanged; it never grows or turns negative |
| Training.Decayed | examples/gazebo_lab06_ex/gazebo_lab06_ex.py:64-72 | for a non-negative initial ε, ε after `n` episodes lies between 0 and the initial ε; an initial ε at or below 0.05 is never changed |
| Training.DecayedClosedForm | examples/gazebo_lab06_ex/gazebo_lab06_ex.py:64-72 | while ε has stayed above 0.05 at the start of each of `n` episodes, ε after them is the initial ε times 0.9986^n |
| Training.DecayedNonIncreasing | examples/gazebo_lab06_ex/gazebo_lab06_ex.py:64-72 | ε after `n` episodes is at most ε after `m ≤ n` episodes, and never negative |
| Training.DecayedFrozen | examples/gazebo_lab06_ex/gazebo_lab06_ex.py:71-72 | once ε is at or below 0.05 it never changes again |
| Training.DecayedFloor | examples/gazebo_lab06_ex/gazebo_lab06_ex.py:71-72 | ε never falls below `min(initial ε, 0.05·0.9986)` |
| Training.EndFrom | gym_gazebo/envs/gazebo_lab06/gazebo_env_lab06.py:104-105 | the episode ends at the first step after which the episode's misses exceed 30, or never if the inputs run out first |
| Training.EpisodeLength | examples/gazebo_lab06_ex/gazebo_lab06_ex.py:80-105 | an episode lasts at least one step and ends on the first step after which the miss count, reset frame included, exceeds 30; there is no length when the frames never push it past 30 |
| Training.Transition | examples/gazebo_lab06_ex/gazebo_lab06_ex.py:84-97 | the action is the one `chooseAction` returns for the agent and state with the step's random numbers; the agent afterwards is `learn(state, action, reward, nextState)` applied to it; the action is appended to the history, the frame's miss is added, the action's reward is earned, `nextState` is the frame's key, and the table's keys gain exactly the (state, action) pair |
| Training.Advance | examples/gazebo_lab06_ex/gazebo_lab06_ex.py:80-105 | one loop iteration extends the step records by one and keeps the loop invariant, including that every action so far was `chooseAction`'s and the table is what `learn` made of the steps |
| Training.RunEpisode | examples/gazebo_lab06_ex/gazebo_lab06_ex.py:64-105 | an episode runs exactly until the frames end it; every step earns its action's reward except the last, which earns -200; the cumulative reward is the running sum; states chain from the reset frame; the agent starts with ε decayed once; every action is `chooseAction`'s on the table learned from the steps before it; the final table is `learn` applied step by step; the "best so far" saves are exactly one per step that beat the record, each with that step's table |
| Training.NextEpisode | examples/gazebo_lab06_ex/gazebo_lab06_ex.py:64-112 | one episode plus its periodic save keeps the run invariant; the periodic save carries the table the episode learned |
| Training.Train | examples/gazebo_lab06_ex/gazebo_lab06_ex.py:60-112 | every episode is played faithfully and its length recorded; each episode starts from the agent the previous one left, with ε decayed once more; `highest_reward` starts at 0, carries over between episodes and never drops below 0; the table's keys are the initial table's keys plus the visited pairs; the saves are exactly the events the episodes call for, in order: a periodic save exists for episode `x` exactly when `x > 0` and `x % 5 == 0`, carrying that episode's learned table, and a "best so far" save exists for a step exactly when it beat the record, carrying that step's table |
| Training.GreedyStepsAreBest | examples/gazebo_lab06_ex/gazebo_lab06_ex.py:84 | in a played episode, a step that did not explore took an action that no action beats on the table it chose with |
| Training.PolicyStep | examples/gazebo_lab06_ex/gazebo_lab06_ex.py:84-97 | a step whose action is `chooseAction`'s and whose learning is `learn`'s extends the recorded policy, and the learned table is the step-by-step one |
| Training.BestSavesExact | examples/gazebo_lab06_ex/gazebo_lab06_ex.py:89-92 | each "best so far" save of an episode belongs to a step that beat the record and carries that step's table; every such step has one; there are as many as such steps |
| Training.EpisodeSavesExact | examples/gazebo_lab06_ex/gazebo_lab06_ex.py:89-112 | one episode's saves carry its index; the periodic one carries the learned table and exists exactly when the episode calls for it |
| Training.SavesLabelled | examples/gazebo_lab06_ex/gazebo_lab06_ex.py:64-112 | every save of the run names a played episode and agrees with that episode's records |
| Training.SavesComplete | examples/gazebo_lab06_ex/gazebo_lab06_ex.py:64-112 | every save the episodes call for, periodic or "best so far", is among the run's saves |
| Training.SavesCount | examples/gazebo_lab06_ex/gazebo_lab06_ex.py:64-112 | the run makes one save per record-beating step plus one per periodic episode |

## Left out

- Camera I/O, OpenCV, ROS services, Gazebo physics and the `Monitor` wrapper are left out. Their numeric results enter as `Frame` inputs.
- The random number generator and the clock are left out. Random numbers enter as `Draws`. The elapsed-time printout is not modelled.
- Q-values, ε, α and γ are IEEE doubles in the script and exact `real`s here. Rounding is not modelled.
- `QLearn.Shift` and `QLearn.Perturb` state the strict upper bound `< q + mag/2`, which holds over the reals. In doubles it can fail: with q = 1000, mag = 1000 and `random()` = 1 - 2^-53, `q + random()*mag - .5*mag` rounds to 1500.0.
- `QLearn.ChooseAction` and `QLearn.Learn` require a non-empty action list (`QLearn.Valid`). With no actions, `max(q)` raises `ValueError` (qlearn.py:78 and 119); that exception is not modelled.
- `Frame.cX` and the column bounds are taken as exact values. The script's floating-point accumulation `lowerbound += spacing` is computed over exact reals.
- `saveQ`, `loadQ` and `plotter.plot` are left out as file and plot operations.
  - Each save is a `Checkpoint` event carrying the table as it was.
  - Pickle and CSV serialisation are not modelled.
  - The plot is folded into the periodic checkpoint.
  - The commented-out `loadQ` call is not modelled.
- `Training.Train`: the script loops forever waiting for a frame. `Train` and `RunEpisode` instead require enough frames to end every episode (`EpisodeReady`).
- `Training.Train` runs `|inputs|` episodes. The script fixes `total_episodes = 10000`.
- `GazeboEnv.Step` does not model the `info` dictionary, which is always empty.
- `Training.Advance` leaves out the `env._flush(force=True)` call after learning. It only flushes the monitor wrapper's output and changes nothing the loop reads.
- `GazeboEnv.Velocity`: publishing the `Twist` is left out. The command is returned instead.
- Progress and settings printouts are left out. The end-of-run table row is left out too, except for the two scores.
- `liveplot.py` is not part of this model.
- `Stats.Overall`: an empty run gives `None` where numpy would print `nan`.
- `Stats.Best100` and `Stats.Report`: an empty run gives `None` for the best-100 score. The intended line 135 would raise `TypeError`, because `reduce` of an empty list has no initial value. The script itself always runs 10000 episodes, so it never reaches that case.

## Findings

| source | as written | input that shows it | evidently intended | confidence | as-written member | corrected member |
|---|---|---|---|---|---|---|
| examples/gazebo_lab06_ex/gazebo_lab06_ex.py:135 | The script runs under `python3` and calls `reduce`, which Python 3 only provides in `functools`. The script never imports it, so the best-100 line raises `NameError` after the overall score is printed. | any completed run, e.g. one episode of length 1 | print the mean of the 100 largest episode lengths | high; not executed | Stats.ReportAsWritten, Stats.UnboundReduceLosesBest100 | Stats.Report |

=== FILE: gazebo_env.dfy ===
/** The decision logic of the line-following environment (`Gazebo_Lab06_Env`):
    binning the line's centroid into one of ten image columns, the miss
    counter that ends an episode, the velocity command and reward of each
    action, and the per-episode bookkeeping cleared by `reset`. The camera,
    OpenCV and ROS calls are replaced by their numeric results. */
module GazeboEnv {
  import opened Wrappers

  /** The image is cut into this many vertical columns, one state slot each. */
  const Columns: nat := 10

  /** An episode ends once more than this many frames showed no line. */
  const MaxMisses: int := 30

  /** What the OpenCV pipeline extracts from one camera image: whether any line
      pixel survived thresholding (`m00 > 0`), the centroid column
      `cX = int(m10 / m00)` and the image width `cols`. */
  datatype Frame = Frame(hasLine: bool, cX: int, cols: nat)

  /** The environment's mutable fields: the miss counter and the actions
      taken in the current episode. */
  datatype Gazebo = Gazebo(timeout: int, episodeHistory: seq<int>)

  /** A `Twist` message reduced to the two components that are set. */
  datatype Twist = Twist(linear: real, angular: real)

  /** Width of one column, `cols / 10`. */
  function Spacing(cols: nat): real {
    cols as real / Columns as real
  }

  /** The centroid lies in column `j`, bounds included on both sides. */
  predicate InColumn(cX: int, cols: nat, j: nat) {
    j as real * Spacing(cols) <= cX as real <= (j + 1) as real * Spacing(cols)
  }

  /** The `for i in range(10)` scan: bounds advance by one spacing per column
      and the first column whose closed interval holds `cX` wins. */
  function Scan(cX: int, cols: nat, i: nat, lower: real, upper: real): (r: Option<nat>)
    requires i <= Columns
    requires lower == i as real * Spacing(cols) && upper == lower + Spacing(cols)
    ensures r.Some? ==> i <= r.value < Columns && InColumn(cX, cols, r.value)
    ensures r.Some? ==> forall j :: i <= j < r.value ==> !InColumn(cX, cols, j)
    ensures r.None? ==> forall j :: i <= j < Columns ==> !InColumn(cX, cols, j)
    decreases Columns - i
  {
    if i == Columns then None
    else
      assert upper == (i + 1) as real * Spacing(cols);
      if cX as real >= lower && cX as real <= upper then Some(i)
      else Scan(cX, cols, i + 1, lower + Spacing(cols), upper + Spacing(cols))
  }

  /** The column of the line's centroid: the smallest column whose interval
      holds `cX`, so a centroid on a boundary goes to the lower column. */
  function LineColumn(cX: int, cols: nat): (r: Option<nat>)
    ensures r.Some? ==> r.value < Columns && InColumn(cX, cols, r.value)
    ensures r.Some? ==> forall j :: 0 <= j < r.value ==> !InColumn(cX, cols, j)
    ensures r.None? ==> forall j :: 0 <= j < Columns ==> !InColumn(cX, cols, j)
  {
    Scan(cX, cols, 0, 0.0, Spacing(cols))
  }

  /** `state = [0, 0, 0, 0, 0, 0, 0, 0, 0, 0]` */
  const Blank: seq<int> := [0, 0, 0, 0, 0, 0, 0, 0, 0, 0]

  /** The state vector `process_image` builds from a frame: the centroid's
      column lit, or all zeros when there is no line or no column holds it.
      At most one slot is lit. */
  function Observation(f: Frame): (state: seq<int>)
    ensures |state| == Columns
    ensures forall i :: 0 <= i < Columns ==> state[i] == 0 || state[i] == 1
    ensures forall i :: 0 <= i < Columns ==> (state[i] == 1 <==> f.hasLine && LineColumn(f.cX, f.cols) == Some(i))
  {
    var col := LineColumn(f.cX, f.cols);
    if f.hasLine && col.Some? then Blank[col.value := 1] else Blank
  }

  /** No two slots of the state vector are lit at once. */
  lemma ObservationOneHot(f: Frame)
    ensures forall i, j :: 0 <= i < Columns && 0 <= j < Columns && Observation(f)[i] == 1 && Observation(f)[j] == 1 ==> i == j
  {
  }

  /** What `process_image` returns, with the environment it leaves behind. */
  datatype Processed = Processed(env: Gazebo, state: seq<int>, done: bool)

  /** `process_image`: the frame's state vector, one more miss when there is
      no line, and `done` once the misses exceed 30. */
  function ProcessImage(env: Gazebo, f: Frame): (r: Processed)
    ensures r.state == Observation(f)
    ensures r.env.timeout == env.timeout + (if f.hasLine then 0 else 1)
    ensures r.env.episodeHistory == env.episodeHistory
    ensures r.done <==> r.env.timeout > MaxMisses
  {
    var env' := if f.hasLine then env else env.(timeout := env.timeout + 1);
    Processed(env', Observation(f), env'.timeout > MaxMisses)
  }

  /** The velocity command published for an action: forward, left, right,
      and a zero `Twist` for anything else. */
  function Velocity(action: int): (t: Twist)
    ensures t.linear > 0.0 <==> action == 0
    ensures t.angular > 0.0 <==> action == 1
    ensures t.angular < 0.0 <==> action == 2
    ensures t.linear >= 0.0 && (t.linear == 0.0 || t.angular == 0.0)
    ensures action == 0 ==> t == Twist(0.4, 0.0)
    ensures action == 1 ==> t == Twist(0.0, 0.5)
    ensures action == 2 ==> t == Twist(0.0, -0.25)
    ensures action !in {0, 1, 2} ==> t == Twist(0.0, 0.0)
  {
    if action == 0 then Twist(0.4, 0.0)
    else if action == 1 then Twist(0.0, 0.5)
    else if action == 2 then Twist(0.0, -0.25)
    else Twist(0.0, 0.0)
  }

  /** The reward of a step: 4 forward, 3 left, 2 otherwise, -200 on the step
      that ends the episode. */
  function Reward(action: int, done: bool): (r: int)
    ensures r < 0 <==> done
    ensures done ==> r == -200
    ensures !done ==> 2 <= r <= 4 && (r == 4 <==> action == 0) && (r == 3 <==> action == 1)
  {
    if done then -200
    else if action == 0 then 4
    else if action == 1 then 3
    else 2
  }

  /** What `step` returns, with the environment it leaves behind and the
      command it published. */
  datatype StepResult = StepResult(env: Gazebo, state: seq<int>, reward: int, done: bool, command: Twist)

  /** `step(action)`, given the camera frame that arrives after the command. */
  function Step(env: Gazebo, action: int, f: Frame): (r: StepResult)
    ensures r.env.episodeHistory == env.episodeHistory + [action]
    ensures r.env.timeout == env.timeout + (if f.hasLine then 0 else 1)
    ensures r.done <==> r.env.timeout > MaxMisses
    ensures r.reward == Reward(action, r.done) && r.command == Velocity(action)
    ensures r.reward < 0 <==> r.done
    ensures !r.done ==> 2 <= r.reward <= 4
    ensures r.state == Observation(f)
  {
    var p := ProcessImage(env.(episodeHistory := env.episodeHistory + [action]), f);
    StepResult(p.env, p.state, Reward(action, p.done), p.done, Velocity(action))
  }

  /** What `reset` returns, with the environment it leaves behind. */
  datatype ResetResult = ResetResult(env: Gazebo, state: seq<int>)

  /** `reset`: the history is emptied and the miss counter zeroed before the
      first frame of the episode is processed; its `done` is discarded. */
  function Reset(env: Gazebo, f: Frame): (r: ResetResult)
    ensures r.env.episodeHistory == []
    ensures r.env.timeout == (if f.hasLine then 0 else 1)
    ensures r.state == Observation(f)
  {
    var p := ProcessImage(Gazebo(0, []), f);
    ResetResult(p.env, p.state)
  }

  /** Column membership in integer arithmetic: `j*cols <= 10*cX <= (j+1)*cols`. */
  lemma InColumnIff(cX: int, cols: nat, j: nat)
    ensures InColumn(cX, cols, j) <==> j * cols <= Columns * cX <= (j + 1) * cols
  {
    var sp := Spacing(cols);
    assert j as real * sp == (j * cols) as real / 10.0;
    assert (j + 1) as real * sp == ((j + 1) * cols) as real / 10.0;
  }

  /** The column in closed form, `ceil(10*cX/cols) - 1` (0 for `cX = 0`). */
  function ColumnIndex(cX: int, cols: nat): int
    requires cols > 0
  {
    if cX <= 0 then 0 else (Columns * cX + cols - 1) / cols - 1
  }

  /** A centroid inside the image always lands in a column, and the scan's
      column is the closed-form one; in particular a centroid exactly on the
      boundary `j*cols/10` goes to column `j-1`. */
  lemma {:induction false} LineColumnClosedForm(cX: int, cols: nat)
    requires cols > 0 && 0 <= cX <= cols
    ensures LineColumn(cX, cols) == Some(ColumnIndex(cX, cols))
  {
    var k := ColumnIndex(cX, cols);
    if cX == 0 {
      InColumnIff(cX, cols, 0);
      FirstColumn(cX, cols, 0);
    } else {
      CeilColumn(cX, cols);
      InColumnIff(cX, cols, k);
      forall j: nat | j < k ensures !InColumn(cX, cols, j) {
        InColumnIff(cX, cols, j);
        MulMono(j + 1, k, cols);
      }
      FirstColumn(cX, cols, k);
    }
  }

  /** For `0 < cX <= cols`, `ceil(10*cX/cols)` is in 1..10 and brackets `10*cX`. */
  lemma CeilColumn(cX: int, cols: nat)
    requires cols > 0 && 0 < cX <= cols
    ensures var k := ColumnIndex(cX, cols);
      0 <= k < Columns && k * cols < Columns * cX <= (k + 1) * cols
  {
    var q := (Columns * cX + cols - 1) / cols;
    DivBounds(Columns * cX + cols - 1, cols);
    assert q * cols <= Columns * cX + cols - 1 < (q + 1) * cols;
    assert (q - 1) * cols < Columns * cX <= q * cols;
    if q > Columns {
      MulMono(Columns, q - 1, cols);
    }
    if q < 1 {
      MulMono(q, 0, cols);
    }
  }

  /** A column that holds `cX` with no earlier column holding it is the scan's answer. */
  lemma FirstColumn(cX: int, cols: nat, k: nat)
    requires k < Columns && InColumn(cX, cols, k)
    requires forall j: nat :: j < k ==> !InColumn(cX, cols, j)
    ensures LineColumn(cX, cols) == Some(k)
  {
    var r := LineColumn(cX, cols);
    assert r.Some?;
  }

  lemma DivBounds(a: int, b: int)
    requires b > 0
    ensures (a / b) * b <= a < (a / b + 1) * b
  {
  }

  lemma MulMono(a: int, b: int, c: nat)
    requires a <= b
    ensures a * c <= b * c
  {
  }

  /** A line-carrying frame whose centroid is inside the image lights exactly
      the closed-form column. */
  lemma LineInViewLightsItsColumn(f: Frame)
    requires f.hasLine && f.cols > 0 && 0 <= f.cX <= f.cols
    ensures 0 <= ColumnIndex(f.cX, f.cols) < Columns
    ensures Observation(f)[ColumnIndex(f.cX, f.cols)] == 1
  {
    LineColumnClosedForm(f.cX, f.cols);
  }

  /** A frame without a line yields the all-zero state. */
  lemma NoLineBlank(f: Frame)
    requires !f.hasLine
    ensures Observation(f) == Blank
  {
  }

  /** 1 for a frame in which no line was found. */
  function Miss(f: Frame): nat {
    if f.hasLine then 0 else 1
  }

  /** The number of line-less frames in `fs`. */
  function Misses(fs: seq<Frame>): nat
  {
    if |fs| == 0 then 0 else Misses(fs[..|fs| - 1]) + Miss(fs[|fs| - 1])
  }

  /** `step` applied to each (action, frame) pair in turn. */
  function StepAll(env: Gazebo, actions: seq<int>, fs: seq<Frame>): Gazebo
    requires |actions| == |fs|
  {
    if |fs| == 0 then env
    else Step(StepAll(env, actions[..|fs| - 1], fs[..|fs| - 1]), actions[|fs| - 1], fs[|fs| - 1]).env
  }

  /** The miss counter is only cleared by `reset`: after a reset on frame
      `f0` and any steps, it holds the total number of line-less frames of the
      episode (not the length of the current run of them), and the history
      holds exactly the actions taken. */
  lemma {:induction false} TimeoutCountsEveryMiss(env: Gazebo, f0: Frame, actions: seq<int>, fs: seq<Frame>)
    requires |actions| == |fs|
    ensures StepAll(Reset(env, f0).env, actions, fs).timeout == Miss(f0) + Misses(fs)
    ensures StepAll(Reset(env, f0).env, actions, fs).episodeHistory == actions
  {
    TimeoutAddsMisses(Reset(env, f0).env, actions, fs);
    HistoryAddsActions(Reset(env, f0).env, actions, fs);
  }

  /** Steps add their frames' misses to the counter. */
  lemma {:induction false} TimeoutAddsMisses(env: Gazebo, actions: seq<int>, fs: seq<Frame>)
    requires |actions| == |fs|
    ensures StepAll(env, actions, fs).timeout == env.timeout + Misses(fs)
  {
    if |fs| > 0 {
      var n := |fs| - 1;
      TimeoutAddsMisses(env, actions[..n], fs[..n]);
      StepAllLast(env, actions, fs);
    }
  }

  /** Steps append their actions to the history. */
  lemma {:induction false} HistoryAddsActions(env: Gazebo, actions: seq<int>, fs: seq<Frame>)
    requires |actions| == |fs|
    ensures StepAll(env, actions, fs).episodeHistory == env.episodeHistory + actions
  {
    if |fs| > 0 {
      var n := |fs| - 1;
      HistoryAddsActions(env, actions[..n], fs[..n]);
      StepAllLast(env, actions, fs);
      assert actions[..n] + [actions[n]] == actions;
    }
  }

  /** The last step adds its frame's miss and appends its action. */
  lemma StepAllLast(env: Gazebo, actions: seq<int>, fs: seq<Frame>)
    requires |actions| == |fs| > 0
    ensures var n := |fs| - 1;
      var prev := StepAll(env, actions[..n], fs[..n]);
      && StepAll(env, actions, fs).timeout == prev.timeout + Miss(fs[n])
      && StepAll(env, actions, fs).episodeHistory == prev.episodeHistory + [actions[n]]
  {
  }

  /** Misses need not be consecutive: miss, line, miss leaves the counter at 2. */
  lemma MissesAreNotConsecutive(env: Gazebo, a: int, b: int, c: int)
    ensures var miss := Frame(false, 0, 320);
      var hit := Frame(true, 160, 320);
      StepAll(Reset(env, hit).env, [a, b, c], [miss, hit, miss]).timeout == 2
  {
    var miss := Frame(false, 0, 320);
    var hit := Frame(true, 160, 320);
    TimeoutCountsEveryMiss(env, hit, [a, b, c], [miss, hit, miss]);
    var fs := [miss, hit, miss];
    assert fs[..2] == [miss, hit] && fs[..2][..1] == [miss] && fs[..2][..1][..0] == [];
    assert Misses(fs[..2][..1]) == 1;
    assert Misses(fs[..2]) == 1;
    assert Misses(fs) == 2;
  }
}

=== FILE: qlearn.dfy ===
/** The tabular Q-learning agent (class `QLearn`): a sparse table from
    (state key, action) to a value, the noisy arg-max action choice, and the
    temporal-difference update with its first-visit rule. */
module QLearn {
  import opened RealSeq

  type State = string
  type Action = int

  /** The dictionary `self.q`, keyed by (state, action). A missing key reads as 0.0. */
  type QTable = map<(State, Action), real>

  /** The agent's fields: the table, ε (exploration), α (learning rate),
      γ (discount) and the fixed action list. */
  datatype Agent = Agent(q: QTable, epsilon: real, alpha: real, gamma: real, actions: seq<Action>)

  /** `max(q)` over the action values needs at least one action. */
  predicate Valid(ag: Agent) {
    |ag.actions| > 0
  }

  /** `QLearn(actions, epsilon, alpha, gamma)`: an empty table. */
  function Init(actions: seq<Action>, epsilon: real, alpha: real, gamma: real): (ag: Agent)
    ensures ag.epsilon == epsilon && ag.alpha == alpha && ag.gamma == gamma && ag.actions == actions
    ensures forall s, a :: GetQ(ag.q, s, a) == 0.0
  {
    Agent(map[], epsilon, alpha, gamma, actions)
  }

  /** `getQ(state, action)`: the stored value, or 0.0 for an unseen pair. */
  function GetQ(q: QTable, s: State, a: Action): (v: real)
    ensures (s, a) in q ==> v == q[(s, a)]
    ensures (s, a) !in q ==> v == 0.0
  {
    if (s, a) in q then q[(s, a)] else 0.0
  }

  /** `getQ` reads back the value last written for a pair, writes to other
      pairs do not affect it, and an empty table reads 0.0 everywhere. */
  lemma GetQReadsLastWrite(q: QTable, s: State, a: Action, v: real)
    ensures GetQ(q[(s, a) := v], s, a) == v
    ensures forall s', a' :: (s', a') != (s, a) ==> GetQ(q[(s, a) := v], s', a') == GetQ(q, s', a')
    ensures GetQ(map[], s, a) == 0.0
  {
  }

  /** `[self.getQ(state, a) for a in self.actions]`, in action order. */
  function QValues(ag: Agent, s: State): (v: seq<real>)
    ensures |v| == |ag.actions|
    ensures forall i :: 0 <= i < |v| ==> v[i] == GetQ(ag.q, s, ag.actions[i])
  {
    seq(|ag.actions|, i requires 0 <= i < |ag.actions| => GetQ(ag.q, s, ag.actions[i]))
  }

  /** The random numbers one call of `chooseAction` may consume: the
      exploration test, one noise sample per action, and the tie-break. */
  datatype Draws = Draws(explore: real, noise: seq<real>, tie: real)

  predicate UnitDraw(u: real) {
    0.0 <= u < 1.0
  }

  predicate ValidDraws(d: Draws, n: nat) {
    && UnitDraw(d.explore)
    && UnitDraw(d.tie)
    && |d.noise| == n
    && forall i :: 0 <= i < n ==> UnitDraw(d.noise[i])
  }

  /** `mag = max(abs(minQ), abs(maxQ))`: a bound on every |q[i]|. */
  function Magnitude(q: seq<real>): (mag: real)
    requires |q| > 0
    ensures mag >= 0.0
    ensures forall i :: 0 <= i < |q| ==> -mag <= q[i] <= mag
    ensures mag in q || -mag in q
  {
    var lo := Min(q);
    var hi := Max(q);
    if Abs(lo) >= Abs(hi) then Abs(lo) else Abs(hi)
  }

  /** One perturbed value `x + u * mag - 0.5 * mag`: it stays within half a
      magnitude of `x`, and is unchanged when the magnitude is zero. */
  function Shift(x: real, u: real, mag: real): (y: real)
    requires UnitDraw(u) && mag >= 0.0
    ensures x - 0.5 * mag <= y <= x + 0.5 * mag
    ensures mag > 0.0 ==> y < x + 0.5 * mag
    ensures mag == 0.0 ==> y == x
  {
    NoiseScaled(u, mag);
    var t := u * mag;
    assert 0.0 <= t <= mag && (mag > 0.0 ==> t < mag) && (mag == 0.0 ==> t == 0.0);
    x + t - 0.5 * mag
  }

  /** Noisy exploration: `[q[i] + random.random() * mag - .5 * mag for i ...]`. */
  function Perturb(q: seq<real>, noise: seq<real>): (p: seq<real>)
    requires |q| > 0 && |noise| == |q|
    requires forall i :: 0 <= i < |noise| ==> UnitDraw(noise[i])
    ensures |p| == |q|
    ensures Magnitude(q) > 0.0 ==>
      forall i :: 0 <= i < |q| ==> q[i] - 0.5 * Magnitude(q) <= p[i] < q[i] + 0.5 * Magnitude(q)
    ensures Magnitude(q) == 0.0 ==> p == q
  {
    var mag := Magnitude(q);
    seq(|q|, i requires 0 <= i < |q| => Shift(q[i], noise[i], mag))
  }

  /** `y` lies in the `[a, b)` slice of `[x - mag/2, x + mag/2)`. */
  predicate InSlice(y: real, x: real, mag: real, a: real, b: real) {
    x - 0.5 * mag + a * mag <= y < x - 0.5 * mag + b * mag
  }

  /** The noise is uniform: a value lands in the `[a, b)` slice of its
      interval exactly when the draw does. */
  lemma ShiftUniform(x: real, u: real, mag: real, a: real, b: real)
    requires UnitDraw(u) && mag > 0.0 && 0.0 <= a <= b <= 1.0
    ensures InSlice(Shift(x, u, mag), x, mag, a, b) <==> a <= u < b
  {
  }

  /** Exploring moves every entry of a non-zero row by its own draw: entry `i`
      lands in the `[a, b)` slice of its interval exactly when `noise[i]`
      does. */
  lemma PerturbUniform(q: seq<real>, noise: seq<real>, i: nat, a: real, b: real)
    requires |q| > 0 && |noise| == |q| && i < |q|
    requires forall j :: 0 <= j < |noise| ==> UnitDraw(noise[j])
    requires Magnitude(q) > 0.0 && 0.0 <= a <= b <= 1.0
    ensures InSlice(Perturb(q, noise)[i], q[i], Magnitude(q), a, b) <==> a <= noise[i] < b
  {
    var mag := Magnitude(q);
    assert Perturb(q, noise)[i] == Shift(q[i], noise[i], mag);
    ShiftUniform(q[i], noise[i], mag, a, b);
  }

  lemma NoiseScaled(u: real, mag: real)
    requires UnitDraw(u) && mag >= 0.0
    ensures 0.0 <= u * mag <= mag
    ensures mag > 0.0 ==> u * mag < mag
    ensures mag == 0.0 ==> u * mag == 0.0
  {
  }

  /** What `chooseAction(state, return_q=True)` hands back: the action, its
      position in the action list, and the value vector the decision used. */
  datatype Choice = Choice(action: Action, index: nat, q: seq<real>)

  /** The vector the arg-max runs on: the table's values, perturbed when the
      exploration draw falls below ε. */
  function DecisionValues(ag: Agent, s: State, d: Draws): (v: seq<real>)
    requires Valid(ag) && ValidDraws(d, |ag.actions|)
    ensures |v| == |ag.actions|
  {
    var q := QValues(ag, s);
    if d.explore < ag.epsilon then Perturb(q, d.noise) else q
  }

  /** The position chosen among the maxima of `v`: `random.choice` over the
      tied positions when there are several, otherwise `v.index(max(v))`. */
  function ArgMax(v: seq<real>, tie: real): (i: nat)
    requires |v| > 0 && UnitDraw(tie)
    ensures i < |v|
    ensures forall j :: 0 <= j < |v| ==> v[j] <= v[i]
    ensures |Ties(v, Max(v))| <= 1 ==> forall j :: 0 <= j < i ==> v[j] < v[i]
    ensures i in Ties(v, Max(v))
  {
    var m := Max(v);
    var best := Ties(v, m);
    if |best| > 1 then best[Pick(tie, |best|)] else IndexOf(v, m)
  }

  /** `chooseAction(state, return_q=True)`. */
  function ChooseAction(ag: Agent, s: State, d: Draws): (c: Choice)
    requires Valid(ag) && ValidDraws(d, |ag.actions|)
    ensures c.index < |ag.actions| && c.action == ag.actions[c.index]
    ensures |c.q| == |ag.actions|
    ensures forall j :: 0 <= j < |c.q| ==> c.q[j] <= c.q[c.index]
    ensures d.explore >= ag.epsilon ==> c.q == QValues(ag, s)
    ensures d.explore < ag.epsilon ==> c.q == Perturb(QValues(ag, s), d.noise)
  {
    var v := DecisionValues(ag, s, d);
    var i := ArgMax(v, d.tie);
    Choice(ag.actions[i], i, v)
  }

  /** Exploitation: when the exploration draw is at least ε, no action of the
      list has a larger table value in state `s` than the chosen one. */
  lemma GreedyChoiceIsBest(ag: Agent, s: State, d: Draws)
    requires Valid(ag) && ValidDraws(d, |ag.actions|) && d.explore >= ag.epsilon
    ensures forall a :: a in ag.actions ==> GetQ(ag.q, s, a) <= GetQ(ag.q, s, ChooseAction(ag, s, d).action)
  {
    var c := ChooseAction(ag, s, d);
    forall a | a in ag.actions
      ensures GetQ(ag.q, s, a) <= GetQ(ag.q, s, c.action)
    {
      var j :| 0 <= j < |ag.actions| && ag.actions[j] == a;
      assert c.q[j] <= c.q[c.index];
    }
  }

  /** A unique maximum is chosen whatever the tie-break draw says. */
  lemma UniqueMaxIsDeterministic(v: seq<real>, u1: real, u2: real)
    requires |v| > 0 && UnitDraw(u1) && UnitDraw(u2)
    requires |Ties(v, Max(v))| == 1
    ensures ArgMax(v, u1) == ArgMax(v, u2)
  {
  }

  /** With `k > 1` tied maxima, the `j`-th of them is chosen exactly for the
      draws in [j/k, (j+1)/k): each tied action is equally likely. */
  lemma TieBreakIsUniform(v: seq<real>, u: real, j: nat)
    requires |v| > 0 && UnitDraw(u)
    requires |Ties(v, Max(v))| > 1 && j < |Ties(v, Max(v))|
    ensures var best := Ties(v, Max(v));
      ArgMax(v, u) == best[j] <==> j as real / |best| as real <= u < (j + 1) as real / |best| as real
  {
    var best := Ties(v, Max(v));
    PickInterval(u, |best|, j);
    var p := Pick(u, |best|);
    if p != j {
      if p < j { assert best[p] < best[j]; } else { assert best[j] < best[p]; }
    }
  }

  /** `learnQ(state1, action1, reward, value)`: a first visit stores the
      reward itself; a later visit moves the old value a fraction α towards
      `value`. Nothing else in the table changes. */
  function LearnQ(ag: Agent, s1: State, a1: Action, reward: real, value: real): (r: Agent)
    ensures r == ag.(q := r.q)
    ensures r.q.Keys == ag.q.Keys + {(s1, a1)}
    ensures forall k :: k in ag.q && k != (s1, a1) ==> r.q[k] == ag.q[k]
    ensures (s1, a1) !in ag.q ==> r.q[(s1, a1)] == reward
  {
    if (s1, a1) !in ag.q then ag.(q := ag.q[(s1, a1) := reward])
    else
      var oldv := ag.q[(s1, a1)];
      ag.(q := ag.q[(s1, a1) := oldv + ag.alpha * (value - oldv)])
  }

  /** `learn(state1, action1, reward, state2)`: `learnQ` with target
      `reward + γ * max(getQ(state2, a) for a in actions)`. */
  function Learn(ag: Agent, s1: State, a1: Action, reward: real, s2: State): (r: Agent)
    requires Valid(ag)
    ensures r == ag.(q := r.q)
    ensures r.q.Keys == ag.q.Keys + {(s1, a1)}
    ensures forall k :: k in ag.q && k != (s1, a1) ==> r.q[k] == ag.q[k]
    ensures (s1, a1) !in ag.q ==> r.q[(s1, a1)] == reward
  {
    LearnQ(ag, s1, a1, reward, reward + ag.gamma * NextValue(ag, s2))
  }

  /** `max(self.getQ(state2, a) for a in self.actions)`. */
  function NextValue(ag: Agent, s: State): real
    requires Valid(ag)
  {
    Max(QValues(ag, s))
  }

  /** The position of an action whose table value in `s` no other action
      beats: the first one holding `max(q)`. */
  function BestNext(ag: Agent, s: State): (j: nat)
    requires Valid(ag)
    ensures j < |ag.actions|
    ensures forall a :: a in ag.actions ==> GetQ(ag.q, s, a) <= GetQ(ag.q, s, ag.actions[j])
  {
    var v := QValues(ag, s);
    var j := IndexOf(v, Max(v));
    forall a | a in ag.actions ensures GetQ(ag.q, s, a) <= GetQ(ag.q, s, ag.actions[j]) {
      var i :| 0 <= i < |ag.actions| && ag.actions[i] == a;
      assert v[i] <= v[j];
    }
    j
  }

  /** A repeat visit moves the value towards `reward + γ * best`, where
      `best` is the table value of an action that no other action beats in
      the next state. */
  lemma LearnTargetsBestNext(ag: Agent, s1: State, a1: Action, reward: real, s2: State)
    requires Valid(ag) && (s1, a1) in ag.q
    ensures var o := ag.q[(s1, a1)];
      var best := GetQ(ag.q, s2, ag.actions[BestNext(ag, s2)]);
      Learn(ag, s1, a1, reward, s2).q[(s1, a1)] == o + ag.alpha * (reward + ag.gamma * best - o)
  {
    var v := QValues(ag, s2);
    assert NextValue(ag, s2) == GetQ(ag.q, s2, ag.actions[BestNext(ag, s2)]) by {
      assert v[BestNext(ag, s2)] == Max(v);
    }
  }

  /** With α in [0,1] a repeat visit lands between the old value and the
      target: the update is a convex blend of the two. */
  lemma LearnQBlends(ag: Agent, s1: State, a1: Action, reward: real, value: real)
    requires (s1, a1) in ag.q && 0.0 <= ag.alpha <= 1.0
    ensures var o := ag.q[(s1, a1)];
      var n := LearnQ(ag, s1, a1, reward, value).q[(s1, a1)];
      n == o + ag.alpha * (value - o) &&
      (o <= value ==> o <= n <= value) && (value <= o ==> value <= n <= o)
  {
    var o := ag.q[(s1, a1)];
    var d := value - o;
    ScaleWithin(ag.alpha, d);
    var t := ag.alpha * d;
    assert d >= 0.0 ==> 0.0 <= t <= d;
    assert d <= 0.0 ==> d <= t <= 0.0;
    assert LearnQ(ag, s1, a1, reward, value).q[(s1, a1)] == o + t;
  }

  lemma ScaleWithin(alpha: real, d: real)
    requires 0.0 <= alpha <= 1.0
    ensures d >= 0.0 ==> 0.0 <= alpha * d <= d
    ensures d <= 0.0 ==> d <= alpha * d <= 0.0
  {
  }

  /** On a first visit neither the target nor α matters: any two targets give
      the same table, holding the raw reward. */
  lemma FirstVisitIgnoresTarget(ag: Agent, s1: State, a1: Action, reward: real, v1: real, v2: real)
    requires (s1, a1) !in ag.q
    ensures LearnQ(ag, s1, a1, reward, v1) == LearnQ(ag, s1, a1, reward, v2)
    ensures GetQ(LearnQ(ag, s1, a1, reward, v1).q, s1, a1) == reward
  {
  }

  /** Two updates of a fresh pair: the first stores `r`, the second yields
      `r + α * (t2 - r)`. */
  lemma SecondVisitBlends(ag: Agent, s: State, a: Action, r: real, t1: real, r2: real, t2: real)
    requires (s, a) !in ag.q
    ensures GetQ(LearnQ(LearnQ(ag, s, a, r, t1), s, a, r2, t2).q, s, a) == r + ag.alpha * (t2 - r)
  {
  }

  /** One call of `learnQ`, recorded. */
  datatype Update = Update(s: State, a: Action, reward: real, value: real)

  /** The table after a sequence of `learnQ` calls, oldest first. */
  function ApplyUpdates(ag: Agent, us: seq<Update>): Agent
  {
    if |us| == 0 then ag
    else
      var u := us[|us| - 1];
      LearnQ(ApplyUpdates(ag, us[..|us| - 1]), u.s, u.a, u.reward, u.value)
  }

  function UpdatedKeys(us: seq<Update>): set<(State, Action)>
  {
    set k | 0 <= k < |us| :: (us[k].s, us[k].a)
  }

  /** `learnQ` is the only writer of the table: after any sequence of updates
      the keys are the old keys plus the updated pairs, and a pair never
      updated still reads as it did before (0.0 for a fresh table). */
  lemma {:induction false} OnlyUpdatedPairsChange(ag: Agent, us: seq<Update>, s: State, a: Action)
    requires (s, a) !in UpdatedKeys(us)
    ensures ApplyUpdates(ag, us).q.Keys == ag.q.Keys + UpdatedKeys(us)
    ensures GetQ(ApplyUpdates(ag, us).q, s, a) == GetQ(ag.q, s, a)
  {
    if |us| > 0 {
      var init := us[..|us| - 1];
      assert UpdatedKeys(us) == UpdatedKeys(init) + {(us[|us| - 1].s, us[|us| - 1].a)} by {
        forall k | 0 <= k < |init| ensures init[k] == us[k] { }
      }
      OnlyUpdatedPairsChange(ag, init, s, a);
    }
  }

  /** For a fresh agent every pair that was never updated reads 0.0. */
  lemma UnwrittenReadsZero(actions: seq<Action>, epsilon: real, alpha: real, gamma: real, us: seq<Update>, s: State, a: Action)
    requires (s, a) !in UpdatedKeys(us)
    ensures GetQ(ApplyUpdates(Init(actions, epsilon, alpha, gamma), us).q, s, a) == 0.0
    ensures ApplyUpdates(Init(actions, epsilon, alpha, gamma), us).q.Keys == UpdatedKeys(us)
  {
    OnlyUpdatedPairsChange(Init(actions, epsilon, alpha, gamma), us, s, a);
  }

  /** The worked example: actions 0..2, α = 0.5, γ = 0.9, an empty table;
      learning (s1, 0, reward 10, unseen s2) twice leaves Q(s1, 0) at 10. */
  lemma LearnTwiceExample()
    ensures var ag := Init([0, 1, 2], 0.0, 0.5, 0.9);
      var once := Learn(ag, "s1", 0, 10.0, "s2");
      var twice := Learn(once, "s1", 0, 10.0, "s2");
      GetQ(once.q, "s1", 0) == 10.0 && GetQ(twice.q, "s1", 0) == 10.0
  {
    var ag := Init([0, 1, 2], 0.0, 0.5, 0.9);
    var once := Learn(ag, "s1", 0, 10.0, "s2");
    assert "s1" != "s2";
    assert QValues(once, "s2") == [0.0, 0.0, 0.0];
  }

  /** The unique-maximum example: values [1, 1, 2] and ε = 0 always choose
      the third action. */
  lemma UniqueMaxExample(d: Draws)
    requires ValidDraws(d, 3)
    ensures var ag := Agent(map[("s", 0) := 1.0, ("s", 1) := 1.0, ("s", 2) := 2.0], 0.0, 0.5, 0.9, [0, 1, 2]);
      ChooseAction(ag, "s", d).action == 2
  {
    var ag := Agent(map[("s", 0) := 1.0, ("s", 1) := 1.0, ("s", 2) := 2.0], 0.0, 0.5, 0.9, [0, 1, 2]);
    assert QValues(ag, "s") == [1.0, 1.0, 2.0];
  }

  /** The tie example: values [2, 2, 1] and ε = 0 choose the first action for
      tie draws below 1/2, the second otherwise, and never the third. */
  lemma TieExample(d: Draws)
    requires ValidDraws(d, 3)
    ensures var ag := Agent(map[("s", 0) := 2.0, ("s", 1) := 2.0, ("s", 2) := 1.0], 0.0, 0.5, 0.9, [0, 1, 2]);
      var c := ChooseAction(ag, "s", d);
      (c.action == 0 <==> d.tie < 0.5) && (c.action == 1 <==> d.tie >= 0.5)
  {
    var ag := Agent(map[("s", 0) := 2.0, ("s", 1) := 2.0, ("s", 2) := 1.0], 0.0, 0.5, 0.9, [0, 1, 2]);
    assert QValues(ag, "s") == [2.0, 2.0, 1.0];
    assert DecisionValues(ag, "s", d) == [2.0, 2.0, 1.0];
    TieArgMax(d.tie);
  }

  lemma TieArgMax(u: real)
    requires UnitDraw(u)
    ensures ArgMax([2.0, 2.0, 1.0], u) == (if u < 0.5 then 0 else 1)
  {
    var v := [2.0, 2.0, 1.0];
    assert Max(v) == 2.0;
    TieList();
    PickInterval(u, 2, 0);
    PickInterval(u, 2, 1);
  }

  lemma TieList()
    ensures Ties([2.0, 2.0, 1.0], 2.0) == [0, 1]
  {
    var v := [2.0, 2.0, 1.0];
    assert v[..2] == [2.0, 2.0] && v[..2][..1] == [2.0] && v[..2][..1][..0] == [];
    assert Ties(v[..2][..1][..0], 2.0) == [];
    assert Ties(v[..2][..1], 2.0) == [0];
    assert Ties(v[..2], 2.0) == [0, 1];
  }
}

=== FILE: real_seq.dfy ===
/** Python's list built-ins applied to a list of Q-values: `max`, `min`,
    `list.index`, the tie list comprehension and `random.choice`. */
module RealSeq {

  function Abs(x: real): (r: real)
    ensures r >= 0.0 && (r == x || r == -x)
  {
    if x < 0.0 then -x else x
  }

  /** Python `max(s)`: the largest element. */
  function Max(s: seq<real>): (m: real)
    requires |s| > 0
    ensures forall i :: 0 <= i < |s| ==> s[i] <= m
    ensures m in s
  {
    if |s| == 1 then s[0]
    else
      var t := Max(s[1..]);
      if s[0] >= t then s[0] else t
  }

  /** Python `min(s)`: the smallest element. */
  function Min(s: seq<real>): (m: real)
    requires |s| > 0
    ensures forall i :: 0 <= i < |s| ==> m <= s[i]
    ensures m in s
  {
    if |s| == 1 then s[0]
    else
      var t := Min(s[1..]);
      if s[0] <= t then s[0] else t
  }

  /** Python `s.index(v)`: the first position holding `v`. */
  function IndexOf(s: seq<real>, v: real): (i: nat)
    requires v in s
    ensures i < |s| && s[i] == v
    ensures forall j :: 0 <= j < i ==> s[j] != v
  {
    if s[0] == v then 0 else 1 + IndexOf(s[1..], v)
  }

  /** `[i for i in range(len(s)) if s[i] == v]`: every position holding `v`,
      in increasing order. Its length is Python's `s.count(v)`. */
  function Ties(s: seq<real>, v: real): (t: seq<nat>)
    ensures forall k :: 0 <= k < |t| ==> t[k] < |s| && s[t[k]] == v
    ensures forall i :: 0 <= i < |s| && s[i] == v ==> i in t
    ensures forall k, l :: 0 <= k < l < |t| ==> t[k] < t[l]
  {
    if |s| == 0 then []
    else
      var t := Ties(s[..|s| - 1], v);
      if s[|s| - 1] == v then t + [|s| - 1] else t
  }

  /** `random.choice` over `k` candidates driven by one uniform draw `u` in
      [0,1): candidate `floor(u * k)`. */
  function Pick(u: real, k: nat): (j: nat)
    requires 0.0 <= u < 1.0 && k > 0
    ensures j < k
  {
    var f := (u * k as real).Floor;
    assert 0.0 <= u * k as real < k as real;
    f
  }

  /** Every candidate owns a sub-interval of [0,1) of width exactly 1/k, so a
      uniform draw selects each of the `k` tied candidates with probability 1/k. */
  lemma PickInterval(u: real, k: nat, j: nat)
    requires 0.0 <= u < 1.0 && k > 0
    ensures Pick(u, k) == j <==> j as real / k as real <= u < (j + 1) as real / k as real
  {
    var x := u * k as real;
    assert Pick(u, k) == x.Floor;
    assert j as real <= x <==> j as real / k as real <= u;
    assert x < (j + 1) as real <==> u < (j + 1) as real / k as real;
  }
}

=== FILE: state_key.dfy ===
/** The state key of an observation: `''.join(map(str, observation))`, the
    decimal renderings of its entries concatenated without separator. */
module StateKey {

  /** Python `str(d)` for a single decimal digit. */
  function DigitChar(d: nat): char
    requires d < 10
  {
    "0123456789"[d]
  }

  /** Python `str(n)` for a non-negative integer. */
  function ShowNat(n: nat): (s: string)
    ensures |s| >= 1
  {
    if n < 10 then [DigitChar(n)] else ShowNat(n / 10) + [DigitChar(n % 10)]
  }

  /** Python `str(n)` for any integer. */
  function Show(n: int): string
  {
    if n < 0 then "-" + ShowNat(-n) else ShowNat(n)
  }

  /** `''.join(map(str, obs))`: each entry contributes at least one
      character, and an observation of single digits is spelled out one
      character per entry. */
  function Key(obs: seq<int>): (k: string)
    ensures |k| >= |obs|
    ensures Digits(obs) ==> |k| == |obs| && forall i :: 0 <= i < |obs| ==> k[i] == DigitChar(obs[i])
  {
    if |obs| == 0 then "" else Key(obs[..|obs| - 1]) + Show(obs[|obs| - 1])
  }

  /** Every entry is a single decimal digit. */
  predicate Digits(obs: seq<int>) {
    forall i :: 0 <= i < |obs| ==> 0 <= obs[i] < 10
  }

  /** Every entry is 0 or 1, as in the environment's one-hot states. */
  predicate Binary(obs: seq<int>) {
    forall i :: 0 <= i < |obs| ==> obs[i] == 0 || obs[i] == 1
  }

  /** For 0/1 observations the key has one character per entry, '1' exactly
      where the entry is 1. */
  lemma {:induction false} BinaryKeyIsPositional(obs: seq<int>)
    requires Binary(obs)
    ensures |Key(obs)| == |obs|
    ensures forall i :: 0 <= i < |obs| ==> Key(obs)[i] == (if obs[i] == 1 then '1' else '0')
  {
    if |obs| > 0 {
      var init := obs[..|obs| - 1];
      assert Binary(init) by {
        forall i | 0 <= i < |init| ensures init[i] == 0 || init[i] == 1 {
          assert init[i] == obs[i];
        }
      }
      BinaryKeyIsPositional(init);
      var last := obs[|obs| - 1];
      assert Show(last) == (if last == 1 then "1" else "0");
    }
  }

  /** Distinct 0/1 observations have distinct keys, so the table keeps their
      values apart. */
  lemma BinaryKeyInjective(o1: seq<int>, o2: seq<int>)
    requires Binary(o1) && Binary(o2) && Key(o1) == Key(o2)
    ensures o1 == o2
  {
    BinaryKeyIsPositional(o1);
    BinaryKeyIsPositional(o2);
    assert |o1| == |o2|;
    forall i | 0 <= i < |o1| ensures o1[i] == o2[i] {
      assert Key(o1)[i] == Key(o2)[i];
    }
  }

  /** Without a separator the key is ambiguous once an entry has two digits:
      [1, 0] and [10] share the key "10". */
  lemma KeyAmbiguousForWideEntries()
    ensures Key([1, 0]) == Key([10]) == "10"
  {
    assert [1, 0][..1] == [1];
    assert [1][..0] == [];
    assert [10][..0] == [];
    assert ShowNat(10) == ShowNat(1) + [DigitChar(0)];
  }
}

=== FILE: stats.dfy ===
/** The end-of-run statistics over the per-episode step counts
    (`last_time_steps`): the overall mean and the "best 100" score, the mean
    of the largest 100 counts. */
module Stats {
  import opened Wrappers

  /** `l[-100:]` keeps this many of the sorted counts. */
  const BestCount: nat := 100

  function Sum(s: seq<int>): int
  {
    if |s| == 0 then 0 else s[0] + Sum(s[1..])
  }

  predicate Sorted(s: seq<int>) {
    forall i, j :: 0 <= i < j < |s| ==> s[i] <= s[j]
  }

  /** Inserts `x` into an ascending sequence. */
  function Insert(x: int, s: seq<int>): (r: seq<int>)
    requires Sorted(s)
    ensures Sorted(r) && |r| == |s| + 1
    ensures multiset(r) == multiset(s) + multiset{x}
  {
    if |s| == 0 || x <= s[0] then [x] + s
    else
      var t := Insert(x, s[1..]);
      assert s == [s[0]] + s[1..];
      assert forall i :: 0 <= i < |t| ==> s[0] <= t[i] by {
        forall i | 0 <= i < |t| ensures s[0] <= t[i] {
          assert t[i] in multiset(s[1..]) + multiset{x};
          if t[i] != x {
            assert t[i] in s[1..];
          }
        }
      }
      [s[0]] + t
  }

  /** `l.sort()`: an ascending permutation of `s`. */
  function Sort(s: seq<int>): (r: seq<int>)
    ensures Sorted(r) && |r| == |s|
    ensures multiset(r) == multiset(s)
  {
    if |s| == 0 then []
    else
      assert s == [s[0]] + s[1..];
      Insert(s[0], Sort(s[1..]))
  }

  lemma {:induction false} SumInsert(x: int, s: seq<int>)
    requires Sorted(s)
    ensures Sum(Insert(x, s)) == x + Sum(s)
  {
    if |s| > 0 && x > s[0] {
      SumInsert(x, s[1..]);
    }
  }

  /** Sorting keeps the total. */
  lemma {:induction false} SumSort(s: seq<int>)
    ensures Sum(Sort(s)) == Sum(s)
  {
    if |s| > 0 {
      SumSort(s[1..]);
      SumInsert(s[0], Sort(s[1..]));
    }
  }

  /** The first `|s| - k` entries of the sorted sequence. */
  function Smallest(s: seq<int>, k: nat): seq<int>
    requires k <= |s|
  {
    Sort(s)[..|s| - k]
  }

  /** The last `k` entries of the sorted sequence: together with the others
      they make up `s`, and none of them is smaller than any entry left out. */
  function Largest(s: seq<int>, k: nat): (t: seq<int>)
    requires k <= |s|
    ensures |t| == k && Sorted(t)
    ensures multiset(Smallest(s, k)) + multiset(t) == multiset(s)
    ensures forall i, j :: 0 <= i < |s| - k && 0 <= j < k ==> Smallest(s, k)[i] <= t[j]
  {
    var sorted := Sort(s);
    var t := sorted[|s| - k..];
    assert sorted == Smallest(s, k) + t;
    t
  }

  /** Python's true division of a sum by a count. */
  function Average(s: seq<int>): real
    requires |s| > 0
  {
    Sum(s) as real / |s| as real
  }

  /** `last_time_steps.mean()`; nothing for a run without episodes. */
  function Overall(steps: seq<int>): (r: Option<real>)
    ensures r.Some? <==> |steps| > 0
    ensures r.Some? ==> r.value == Average(steps)
  {
    if |steps| == 0 then None else Some(Average(steps))
  }

  /** The "best 100" score: sort, keep the last `min(100, n)`, average them;
      nothing for a run without episodes. */
  function Best100(steps: seq<int>): (r: Option<real>)
    ensures r.Some? <==> |steps| > 0
    ensures r.Some? ==> r.value == Average(Largest(steps, TopCount(|steps|)))
  {
    if |steps| == 0 then None
    else Some(Average(Largest(steps, TopCount(|steps|))))
  }

  /** How many episodes `l[-100:]` keeps: all of them up to 100. */
  function TopCount(n: nat): (k: nat)
    ensures k <= n && k <= BestCount && (n > 0 ==> k > 0)
  {
    if n < BestCount then n else BestCount
  }

  lemma {:induction false} SumConcat(a: seq<int>, b: seq<int>)
    ensures Sum(a + b) == Sum(a) + Sum(b)
  {
    if |a| == 0 {
      assert a + b == b;
    } else {
      assert (a + b)[1..] == a[1..] + b;
      SumConcat(a[1..], b);
    }
  }

  lemma {:induction false} SumAtLeast(s: seq<int>, m: int)
    requires forall i :: 0 <= i < |s| ==> m <= s[i]
    ensures |s| * m <= Sum(s)
  {
    if |s| > 0 {
      SumAtLeast(s[1..], m);
    }
  }

  lemma {:induction false} SumAtMost(s: seq<int>, m: int)
    requires forall i :: 0 <= i < |s| ==> s[i] <= m
    ensures Sum(s) <= |s| * m
  {
    if |s| > 0 {
      SumAtMost(s[1..], m);
    }
  }

  /** The best-100 score is never below the overall mean. */
  lemma Best100AtLeastOverall(steps: seq<int>)
    requires |steps| > 0
    ensures Best100(steps).value >= Overall(steps).value
  {
    LargestMeanAtLeast(steps, TopCount(|steps|));
  }

  /** The mean of the `k` largest entries is at least the mean of all. */
  lemma LargestMeanAtLeast(steps: seq<int>, k: nat)
    requires 0 < k <= |steps|
    ensures Average(Largest(steps, k)) >= Average(steps)
  {
    var b := Smallest(steps, k);
    var t := Largest(steps, k);
    assert Average(b + t) == Average(steps) by {
      assert Sort(steps) == b + t;
      SumSort(steps);
    }
    TopMeanAtLeast(b, t);
  }

  /** The mean of a top part is at least the mean of the whole. */
  lemma TopMeanAtLeast(b: seq<int>, t: seq<int>)
    requires |t| > 0 && Sorted(t)
    requires forall i, j :: 0 <= i < |b| && 0 <= j < |t| ==> b[i] <= t[j]
    ensures Average(t) >= Average(b + t)
  {
    var n, k := |b| + |t|, |t|;
    SumConcat(b, t);
    var m := t[0];
    SumAtLeast(t, m);
    SumAtMost(b, m);
    Cross(n, k, Sum(t), Sum(b), m);
    MeanCompare(Sum(t), k, Sum(b) + Sum(t), n);
    assert Sum(b + t) == Sum(b) + Sum(t);
  }

  lemma Cross(n: nat, k: nat, st: int, sb: int, m: int)
    requires k <= n && k * m <= st && sb <= (n - k) * m
    ensures n * st >= k * (sb + st)
  {
    MulLeft(n - k, k * m, st);
    MulLeft(k, sb, (n - k) * m);
    assert (n - k) * (k * m) == k * ((n - k) * m);
    assert n * st == (n - k) * st + k * st;
    assert k * (sb + st) == k * sb + k * st;
  }

  lemma MulLeft(c: nat, x: int, y: int)
    requires x <= y
    ensures c * x <= c * y
  {
  }

  /** `a/k >= s/n` from `n*a >= k*s` for positive counts. */
  lemma MeanCompare(a: int, k: nat, s: int, n: nat)
    requires k > 0 && n > 0 && n * a >= k * s
    ensures a as real / k as real >= s as real / n as real
  {
    var x := a as real / k as real;
    var y := s as real / n as real;
    assert x * k as real == a as real;
    assert y * n as real == s as real;
    assert (n * a) as real >= (k * s) as real;
    assert (x - y) * (k as real * n as real) >= 0.0;
  }

  /** With at most 100 episodes the best-100 score is the overall mean. */
  lemma ShortRunBest100IsOverall(steps: seq<int>)
    requires 0 < |steps| <= BestCount
    ensures Best100(steps) == Overall(steps)
  {
    var t := Largest(steps, |steps|);
    assert t == Sort(steps);
    SumSort(steps);
  }

  /** One line of the closing report: a printed score (nothing for the `nan`
      of an empty run), or the exception that stops the script there. */
  datatype ScoreLine = Printed(score: Option<real>) | Raised(error: string)

  /** The closing report as written: the overall mean is printed, then the
      best-100 line raises `NameError`, because the script runs under
      Python 3 and uses `reduce` without importing it from `functools`. */
  function ReportAsWritten(steps: seq<int>): (lines: seq<ScoreLine>)
    ensures |lines| == 2 && lines[0] == Printed(Overall(steps))
    ensures lines[1].Raised?
  {
    [Printed(Overall(steps)), Raised("NameError")]
  }

  /** The closing report as intended: the overall mean, then the mean of the
      best 100 counts, which is never the smaller of the two. */
  function Report(steps: seq<int>): (lines: seq<ScoreLine>)
    ensures |lines| == 2 && lines[0] == Printed(Overall(steps)) && lines[1] == Printed(Best100(steps))
    ensures |steps| > 0 ==> lines[0].score.Some? && lines[1].score.Some? && lines[1].score.value >= lines[0].score.value
  {
    ScoresOrdered(steps);
    [Printed(Overall(steps)), Printed(Best100(steps))]
  }

  lemma ScoresOrdered(steps: seq<int>)
    ensures |steps| > 0 ==> Best100(steps).Some? && Overall(steps).Some? && Best100(steps).value >= Overall(steps).value
  {
    if |steps| > 0 {
      Best100AtLeastOverall(steps);
    }
  }

  /** On every run that ends, the as-written report loses the best-100
      score that the intended report prints. */
  lemma UnboundReduceLosesBest100(steps: seq<int>)
    requires |steps| > 0
    ensures ReportAsWritten(steps)[1].Raised? && Report(steps)[1].score.Some?
    ensures ReportAsWritten(steps)[0] == Report(steps)[0] && ReportAsWritten(steps)[1] != Report(steps)[1]
  {
  }
}

=== FILE: training.dfy ===
/** The training loop (`__main__` of the line-following example): episodes
    against the Gazebo environment, per-episode ε decay, cumulative and best
    rewards, "best so far" and periodic checkpoints, and the step count of
    every episode. Everything the loop reads from outside — camera frames and
    random numbers — is an explicit input. */
module Training {
  import opened Wrappers
  import opened QLearn
  import opened GazeboEnv
  import StateKey

  /** `epsilon_discount`: ε is multiplied by this once per episode. */
  const EpsilonDiscount: real := 0.9986

  /** ε is only decayed while strictly above this threshold. */
  const EpsilonFloor: real := 0.05

  /** The table is saved and the plot refreshed every this many episodes. */
  const PlotInterval: nat := 5

  /** Whether the table is saved and the plot refreshed after episode `x`. */
  predicate PlotDue(x: int) {
    0 < x && x % PlotInterval == 0
  }

  /** `QLearn(actions=range(3), alpha=0.5, gamma=0.5, epsilon=0.9)` for the
      three-action (forward, left, right) environment. */
  function InitialAgent(): (ag: Agent)
    ensures Valid(ag) && ag.actions == [0, 1, 2]
    ensures ag.epsilon == 0.9 && ag.alpha == 0.5 && ag.gamma == 0.5
    ensures forall s, a :: GetQ(ag.q, s, a) == 0.0
  {
    QLearn.Init([0, 1, 2], 0.9, 0.5, 0.5)
  }

  // ---------------------------------------------------------------- ε decay

  /** The start-of-episode decay: `if epsilon > 0.05: epsilon *= 0.9986`. */
  function Decay(eps: real): (r: real)
    ensures eps >= 0.0 ==> 0.0 <= r <= eps
    ensures eps <= EpsilonFloor ==> r == eps
    ensures eps > EpsilonFloor ==> r == eps * EpsilonDiscount && r < eps
    ensures eps > EpsilonFloor ==> r > EpsilonFloor * EpsilonDiscount
  {
    if eps > EpsilonFloor then eps * EpsilonDiscount else eps
  }

  /** ε after `n` episodes have started. */
  function Decayed(eps: real, n: nat): (r: real)
    ensures 0.0 <= eps ==> 0.0 <= r <= eps
    ensures eps <= EpsilonFloor ==> r == eps
  {
    if n == 0 then eps else Decay(Decayed(eps, n - 1))
  }

  /** `x` multiplied by itself `n` times. */
  function Pow(x: real, n: nat): real {
    if n == 0 then 1.0 else Pow(x, n - 1) * x
  }

  /** While ε stays above the threshold, `n` episodes multiply it by
      `0.9986^n`. */
  lemma {:induction false} DecayedClosedForm(eps: real, n: nat)
    requires forall m :: 0 <= m < n ==> Decayed(eps, m) > EpsilonFloor
    ensures Decayed(eps, n) == eps * Pow(EpsilonDiscount, n)
  {
    if n > 0 {
      DecayedClosedForm(eps, n - 1);
      assert Decayed(eps, n - 1) > EpsilonFloor;
    }
  }

  /** ε never increases from one episode to a later one. */
  lemma {:induction false} DecayedNonIncreasing(eps: real, m: nat, n: nat)
    requires 0.0 <= eps && m <= n
    ensures 0.0 <= Decayed(eps, n) <= Decayed(eps, m)
  {
    if m < n {
      DecayedNonIncreasing(eps, m, n - 1);
    } else if n > 0 {
      DecayedNonIncreasing(eps, n - 1, n - 1);
    }
  }

  /** Once ε is at or below the threshold it never changes again. */
  lemma {:induction false} DecayedFrozen(eps: real, m: nat, n: nat)
    requires m <= n && Decayed(eps, m) <= EpsilonFloor
    ensures Decayed(eps, n) == Decayed(eps, m)
  {
    if m < n {
      DecayedFrozen(eps, m, n - 1);
    }
  }

  /** ε never falls below `min(initial ε, 0.05 * 0.9986)`. */
  lemma {:induction false} DecayedFloor(eps: real, n: nat)
    ensures Decayed(eps, n) >= (if eps < EpsilonFloor * EpsilonDiscount then eps else EpsilonFloor * EpsilonDiscount)
  {
    if n > 0 {
      DecayedFloor(eps, n - 1);
    }
  }

  // ------------------------------------------------------- external inputs

  /** What one step of the loop consumes from outside: the random numbers of
      `chooseAction` and the camera frame that arrives after the command. */
  datatype StepInput = StepInput(draws: Draws, frame: Frame)

  /** One episode's inputs: the frame read by `reset`, then one per step.
      Frames beyond the step that ends the episode are never read. */
  datatype EpisodeInput = EpisodeInput(first: Frame, steps: seq<StepInput>)

  /** The frames of the step inputs, in order. */
  function Frames(steps: seq<StepInput>): (fs: seq<Frame>)
    ensures |fs| == |steps| && forall i :: 0 <= i < |steps| ==> fs[i] == steps[i].frame
  {
    seq(|steps|, i requires 0 <= i < |steps| => steps[i].frame)
  }

  /** The environment's miss counter after `n` steps of the episode. */
  function TimeoutAfter(e: EpisodeInput, n: nat): nat
    requires n <= |e.steps|
  {
    Miss(e.first) + Misses(Frames(e.steps)[..n])
  }

  /** Each step adds its frame's miss to the counter. */
  lemma TimeoutStep(e: EpisodeInput, i: nat)
    requires i < |e.steps|
    ensures TimeoutAfter(e, i + 1) == TimeoutAfter(e, i) + Miss(e.steps[i].frame)
  {
    var fs := Frames(e.steps);
    assert fs[..i + 1][..i] == fs[..i];
  }

  /** The first step count from `n` on at which the miss counter exceeds 30. */
  function EndFrom(e: EpisodeInput, n: nat): (r: Option<nat>)
    requires 1 <= n
    ensures r.Some? ==> n <= r.value <= |e.steps| && TimeoutAfter(e, r.value) > MaxMisses
    ensures r.Some? ==> forall m :: n <= m < r.value ==> TimeoutAfter(e, m) <= MaxMisses
    ensures r.None? ==> forall m :: n <= m <= |e.steps| ==> TimeoutAfter(e, m) <= MaxMisses
    decreases |e.steps| + 1 - n
  {
    if n > |e.steps| then None
    else if TimeoutAfter(e, n) > MaxMisses then Some(n)
    else EndFrom(e, n + 1)
  }

  /** The number of steps the episode lasts: at least one step is always
      taken, and the episode ends on the step whose frame is its 31st miss,
      counting the reset frame. Nothing if the frames run out first. */
  function EpisodeLength(e: EpisodeInput): (r: Option<nat>)
    ensures r.Some? ==> 1 <= r.value <= |e.steps| && TimeoutAfter(e, r.value) > MaxMisses
    ensures r.Some? ==> forall m :: 1 <= m < r.value ==> TimeoutAfter(e, m) <= MaxMisses
    ensures r.None? ==> forall m :: 1 <= m <= |e.steps| ==> TimeoutAfter(e, m) <= MaxMisses
  {
    EndFrom(e, 1)
  }

  /** Before the last step the counter has not passed 30; after it, it has. */
  lemma EndStep(e: EpisodeInput, i: nat)
    requires EpisodeLength(e).Some? && i < EpisodeLength(e).value
    ensures TimeoutAfter(e, i + 1) > MaxMisses <==> i + 1 == EpisodeLength(e).value
  {
  }

  /** The state after step `i` is the one the agent acts in at step `i + 1`. */
  lemma NextKey(e: EpisodeInput, i: nat, next: State)
    requires i < |e.steps| && next == StateKey.Key(Observation(e.steps[i].frame))
    ensures next == KeyBefore(e, i + 1)
  {
  }

  /** The inputs suffice for the episode to end, and every draw is in [0,1). */
  predicate EpisodeReady(e: EpisodeInput, actionCount: nat) {
    && EpisodeLength(e).Some?
    && forall i :: 0 <= i < |e.steps| ==> ValidDraws(e.steps[i].draws, actionCount)
  }

  /** The key of the state the agent is in before step `k`: the reset frame's
      state for the first step, the previous step's observation after that. */
  function KeyBefore(e: EpisodeInput, k: nat): State
    requires k <= |e.steps|
  {
    if k == 0 then StateKey.Key(Observation(e.first))
    else StateKey.Key(Observation(e.steps[k - 1].frame))
  }

  // ---------------------------------------------------------------- records

  /** What the loop knows after one step: the state key it acted in, the
      action, the table the agent chose with (a "best so far" checkpoint of
      the step saves this table, before learning), the step reward,
      `cumulated_reward`, `highest_reward`, and whether a "best so far"
      checkpoint was written. */
  datatype StepRecord = StepRecord(state: State, action: Action, table: QTable, reward: int,
                                   cumulated: int, highest: int, newBest: bool)

  /** One episode: the agent as it began (ε already decayed), `highest_reward`
      when it began, its steps, the table it left behind, and whether it ended
      with a periodic checkpoint and plot. */
  datatype EpisodeRecord = EpisodeRecord(agent: Agent, startHighest: int, steps: seq<StepRecord>,
                                         final: QTable, periodic: bool)

  /** `saveQ` events: the table as it was when it was written. */
  datatype Checkpoint =
    | BestSoFar(episode: nat, step: nat, table: QTable)
    | Periodic(episode: nat, table: QTable)

  /** The sum of the step rewards. */
  function RewardSum(recs: seq<StepRecord>): int
  {
    if |recs| == 0 then 0 else RewardSum(recs[..|recs| - 1]) + recs[|recs| - 1].reward
  }

  /** `highest_reward` after the records: `h`, raised to every cumulative
      reward that exceeded it. */
  function Peak(h: int, recs: seq<StepRecord>): int
  {
    if |recs| == 0 then h
    else
      var p := Peak(h, recs[..|recs| - 1]);
      if p < recs[|recs| - 1].cumulated then recs[|recs| - 1].cumulated else p
  }

  /** After every step, `cumulated_reward` is the sum of the rewards so far:
      it restarts at 0 each episode. */
  predicate RunningSum(recs: seq<StepRecord>) {
    |recs| > 0 ==> RunningSum(recs[..|recs| - 1]) && recs[|recs| - 1].cumulated == RewardSum(recs)
  }

  /** At every step the record is beaten, and a "best" checkpoint written,
      exactly when the cumulative reward strictly exceeds the highest so
      far; `highest` is the running maximum from `h`. */
  predicate RecordTracking(recs: seq<StepRecord>, h: int) {
    |recs| > 0 ==>
      && RecordTracking(recs[..|recs| - 1], h)
      && (recs[|recs| - 1].newBest <==> recs[|recs| - 1].cumulated > Peak(h, recs[..|recs| - 1]))
      && recs[|recs| - 1].highest == Peak(h, recs)
  }

  /** Every action is one of the agent's. */
  predicate ActionsFrom(recs: seq<StepRecord>, actions: seq<Action>) {
    forall k :: 0 <= k < |recs| ==> recs[k].action in actions
  }

  /** The agent acts in the reset state first and then in each observation
      that did not end the episode. */
  predicate StateChain(recs: seq<StepRecord>, e: EpisodeInput)
    requires |recs| <= |e.steps|
  {
    |recs| > 0 ==> StateChain(recs[..|recs| - 1], e) && recs[|recs| - 1].state == KeyBefore(e, |recs| - 1)
  }

  /** The bookkeeping of one episode's steps as the loop does it. */
  predicate StepsFaithful(recs: seq<StepRecord>, e: EpisodeInput, h: int, actions: seq<Action>)
    requires |recs| <= |e.steps|
  {
    RunningSum(recs) && RecordTracking(recs, h) && ActionsFrom(recs, actions) && StateChain(recs, e)
  }

  /** The agent at the start of an episode, after
      `if epsilon > 0.05: epsilon *= 0.9986`. */
  function Started(ag: Agent): (s: Agent)
    ensures s.q == ag.q && s.epsilon == Decay(ag.epsilon) && SameRates(s, ag)
  {
    ag.(epsilon := Decay(ag.epsilon))
  }

  /** The table of an agent that began the episode as `start` once it has
      learned from the first `n` steps of `recs`: step `k` calls
      `learn(state, action, reward, nextState)`, where `nextState` is the key
      of step `k`'s frame. */
  function TableAfter(start: Agent, recs: seq<StepRecord>, e: EpisodeInput, n: nat): QTable
    requires Valid(start) && n <= |recs| <= |e.steps|
  {
    if n == 0 then start.q
    else
      Learn(start.(q := TableAfter(start, recs, e, n - 1)), recs[n - 1].state, recs[n - 1].action,
            recs[n - 1].reward as real, KeyBefore(e, n)).q
  }

  /** Step `k` acted on the table learned from the steps before it, and its
      action is what `chooseAction` returns on that table with the step's
      random numbers. */
  predicate ChoseAt(start: Agent, recs: seq<StepRecord>, e: EpisodeInput, k: nat)
    requires Valid(start) && k < |recs| <= |e.steps|
  {
    && recs[k].table == TableAfter(start, recs, e, k)
    && ValidDraws(e.steps[k].draws, |start.actions|)
    && recs[k].action == ChooseAction(start.(q := recs[k].table), recs[k].state, e.steps[k].draws).action
  }

  /** Every step of the episode chose as the agent does. */
  predicate Policy(start: Agent, recs: seq<StepRecord>, e: EpisodeInput)
    requires Valid(start) && |recs| <= |e.steps|
  {
    forall k :: 0 <= k < |recs| ==> ChoseAt(start, recs, e, k)
  }

  /** The (state, action) pairs the episode learned from. */
  function Visited(recs: seq<StepRecord>): set<(State, Action)>
  {
    if |recs| == 0 then {} else Visited(recs[..|recs| - 1]) + {(recs[|recs| - 1].state, recs[|recs| - 1].action)}
  }

  /** The actions taken, in order. */
  function Actions(recs: seq<StepRecord>): seq<Action>
  {
    if |recs| == 0 then [] else Actions(recs[..|recs| - 1]) + [recs[|recs| - 1].action]
  }

  /** The number of "best so far" checkpoints the records call for. */
  function CountBest(recs: seq<StepRecord>): nat
  {
    if |recs| == 0 then 0 else CountBest(recs[..|recs| - 1]) + (if recs[|recs| - 1].newBest then 1 else 0)
  }

  /** The "best so far" `saveQ` events of episode `x`, in order: one for each
      step that beat the record, with the step's index and the table it
      chose with. */
  function BestSaves(x: nat, recs: seq<StepRecord>): seq<Checkpoint>
  {
    if |recs| == 0 then []
    else
      var k := |recs| - 1;
      BestSaves(x, recs[..k]) + (if recs[k].newBest then [BestSoFar(x, k, recs[k].table)] else [])
  }

  lemma ExtendTallies(recs: seq<StepRecord>, r: StepRecord, h: int, x: nat)
    ensures Visited(recs + [r]) == Visited(recs) + {(r.state, r.action)}
    ensures Actions(recs + [r]) == Actions(recs) + [r.action]
    ensures BestSaves(x, recs + [r]) == BestSaves(x, recs) + (if r.newBest then [BestSoFar(x, |recs|, r.table)] else [])
    ensures RewardSum(recs + [r]) == RewardSum(recs) + r.reward
    ensures Peak(h, recs + [r]) == (if Peak(h, recs) < r.cumulated then r.cumulated else Peak(h, recs))
  {
    assert (recs + [r])[..|recs|] == recs;
  }

  /** A step that did not explore took an action no other action beats on
      the table it acted on. */
  lemma GreedyStepsAreBest(start: Agent, recs: seq<StepRecord>, e: EpisodeInput, k: nat)
    requires Valid(start) && |recs| <= |e.steps| && Policy(start, recs, e) && k < |recs|
    requires e.steps[k].draws.explore >= start.epsilon
    ensures forall a :: a in start.actions ==>
      GetQ(recs[k].table, recs[k].state, a) <= GetQ(recs[k].table, recs[k].state, recs[k].action)
  {
    assert ChoseAt(start, recs, e, k);
    GreedyChoiceIsBest(start.(q := recs[k].table), recs[k].state, e.steps[k].draws);
  }

  /** Every "best so far" event of episode `x` belongs to a step that beat the
      record and carries that step's table, and every such step has one. */
  lemma {:induction false} BestSavesExact(x: nat, recs: seq<StepRecord>)
    ensures forall c :: c in BestSaves(x, recs) ==>
      c.BestSoFar? && c.episode == x && c.step < |recs| && recs[c.step].newBest && c.table == recs[c.step].table
    ensures forall k :: 0 <= k < |recs| ==> (recs[k].newBest <==> BestSoFar(x, k, recs[k].table) in BestSaves(x, recs))
    ensures |BestSaves(x, recs)| == CountBest(recs)
  {
    if |recs| > 0 {
      var n := |recs| - 1;
      var p := recs[..n];
      BestSavesExact(x, p);
      assert forall k :: 0 <= k < n ==> p[k] == recs[k];
      var more := if recs[n].newBest then [BestSoFar(x, n, recs[n].table)] else [];
      assert BestSaves(x, recs) == BestSaves(x, p) + more;
      forall c | c in BestSaves(x, recs)
        ensures c.BestSoFar? && c.episode == x && c.step < |recs| && recs[c.step].newBest && c.table == recs[c.step].table
      {
        if c !in BestSaves(x, p) {
          assert c in more;
        }
      }
      forall k | 0 <= k < |recs|
        ensures recs[k].newBest <==> BestSoFar(x, k, recs[k].table) in BestSaves(x, recs)
      {
        if k < n {
          assert BestSoFar(x, k, recs[k].table) !in more;
        } else {
          assert BestSoFar(x, k, recs[k].table) !in BestSaves(x, p);
        }
      }
    }
  }

  /** Appending a step whose bookkeeping follows the loop keeps the records
      faithful. */
  lemma ExtendFaithful(recs: seq<StepRecord>, r: StepRecord, e: EpisodeInput, h: int, x: nat, actions: seq<Action>)
    requires |recs| < |e.steps| && StepsFaithful(recs, e, h, actions)
    requires r.cumulated == RewardSum(recs) + r.reward
    requires r.newBest <==> r.cumulated > Peak(h, recs)
    requires r.highest == (if r.newBest then r.cumulated else Peak(h, recs))
    requires r.action in actions && r.state == KeyBefore(e, |recs|)
    ensures StepsFaithful(recs + [r], e, h, actions)
    ensures Visited(recs + [r]) == Visited(recs) + {(r.state, r.action)}
    ensures Actions(recs + [r]) == Actions(recs) + [r.action]
    ensures BestSaves(x, recs + [r]) == BestSaves(x, recs) + (if r.newBest then [BestSoFar(x, |recs|, r.table)] else [])
    ensures RewardSum(recs + [r]) == RewardSum(recs) + r.reward
    ensures Peak(h, recs + [r]) == r.highest
  {
    ExtendTallies(recs, r, h, x);
    assert ActionsFrom(recs + [r], actions);
  }

  lemma RewardsExtend(recs: seq<StepRecord>, r: StepRecord, i: nat, len: nat)
    requires |recs| == i
    requires forall k :: 0 <= k < i ==> recs[k].reward == GazeboEnv.Reward(recs[k].action, k == len - 1)
    requires r.reward == GazeboEnv.Reward(r.action, i == len - 1)
    ensures forall k :: 0 <= k < i + 1 ==> (recs + [r])[k].reward == GazeboEnv.Reward((recs + [r])[k].action, k == len - 1)
  {
    forall k | 0 <= k < i + 1
      ensures (recs + [r])[k].reward == GazeboEnv.Reward((recs + [r])[k].action, k == len - 1)
    {
      if k < i { assert (recs + [r])[k] == recs[k]; }
    }
  }

  lemma KeysExtend<K>(start: set<K>, visited: set<K>, before: set<K>, after: set<K>, p: K)
    requires before == start + visited && after == before + {p}
    ensures after == start + (visited + {p})
  {
  }

  /** Learning rate, discount and action set agree; the loop never changes them. */
  predicate SameRates(a: Agent, b: Agent) {
    a.alpha == b.alpha && a.gamma == b.gamma && a.actions == b.actions
  }

  /** A step chosen and learned as the agent does keeps the policy and the
      learned table in step with the records. */
  lemma PolicyStep(start: Agent, recs: seq<StepRecord>, r: StepRecord, e: EpisodeInput,
                   agent: Agent, agent': Agent, next: State)
    requires Valid(start) && |recs| < |e.steps| && Policy(start, recs, e)
    requires agent.q == TableAfter(start, recs, e, |recs|) && agent.epsilon == start.epsilon && SameRates(agent, start)
    requires r.table == agent.q
    requires ValidDraws(e.steps[|recs|].draws, |start.actions|)
    requires r.action == ChooseAction(agent, r.state, e.steps[|recs|].draws).action
    requires next == KeyBefore(e, |recs| + 1)
    requires agent' == Learn(agent, r.state, r.action, r.reward as real, next)
    ensures Policy(start, recs + [r], e)
    ensures agent'.q == TableAfter(start, recs + [r], e, |recs| + 1)
  {
    var rs := recs + [r];
    assert agent == start.(q := r.table);
    forall k | 0 <= k < |rs|
      ensures ChoseAt(start, rs, e, k)
    {
      TableAfterAppend(start, recs, r, e, k);
      if k < |recs| {
        assert ChoseAt(start, recs, e, k);
        assert rs[k] == recs[k];
      }
    }
    TableAfterAppend(start, recs, r, e, |recs|);
  }

  /** Steps appended later do not change the table learned from earlier ones. */
  lemma {:induction false} TableAfterAppend(start: Agent, recs: seq<StepRecord>, r: StepRecord, e: EpisodeInput, n: nat)
    requires Valid(start) && n <= |recs| < |e.steps|
    ensures TableAfter(start, recs + [r], e, n) == TableAfter(start, recs, e, n)
  {
    if n > 0 {
      TableAfterAppend(start, recs, r, e, n - 1);
      assert (recs + [r])[n - 1] == recs[n - 1];
    }
  }

  // ------------------------------------------------------------ one episode

  /** One pass through the inner loop's body without the reward bookkeeping:
      choose an action in `state`, apply it with the next camera frame, and
      learn from the transition (the terminal one included). */
  method Transition(ag: Agent, env: Gazebo, state: State, inp: StepInput)
    returns (action: Action, env': Gazebo, reward: int, done: bool, next: State, ag': Agent)
    requires Valid(ag) && ValidDraws(inp.draws, |ag.actions|)
    ensures action == ChooseAction(ag, state, inp.draws).action && action in ag.actions
    ensures env'.timeout == env.timeout + Miss(inp.frame)
    ensures env'.episodeHistory == env.episodeHistory + [action]
    ensures done <==> env'.timeout > MaxMisses
    ensures reward == GazeboEnv.Reward(action, done)
    ensures next == StateKey.Key(Observation(inp.frame))
    ensures ag' == Learn(ag, state, action, reward as real, next)
    ensures ag'.epsilon == ag.epsilon && SameRates(ag', ag)
    ensures ag'.q.Keys == ag.q.Keys + {(state, action)}
  {
    var c := ChooseAction(ag, state, inp.draws);
    action := c.action;
    var so := Step(env, action, inp.frame);
    env', reward, done := so.env, so.reward, so.done;
    next := StateKey.Key(so.state);
    ag' := Learn(ag, state, action, reward as real, next);
  }

  /** The loop's variables between two steps. */
  datatype Loop = Loop(agent: Agent, env: Gazebo, state: State, cumulated: int, highest: int,
                       recs: seq<StepRecord>, cps: seq<Checkpoint>, done: bool)

  /** The environment and the agent after the steps `recs` of an episode
      of length `len` run on inputs `e` by an agent that began as `start`. */
  predicate WorldInv(agent: Agent, env: Gazebo, state: State, done: bool, recs: seq<StepRecord>,
                     start: Agent, e: EpisodeInput, len: nat) {
    && |recs| <= len <= |e.steps|
    && (done <==> |recs| == len)
    && env.timeout == TimeoutAfter(e, |recs|)
    && env.episodeHistory == Actions(recs)
    && (!done ==> state == KeyBefore(e, |recs|))
    && agent.epsilon == start.epsilon && SameRates(agent, start)
    && agent.q.Keys == start.q.Keys + Visited(recs)
  }

  /** The loop's bookkeeping after the steps `recs` of episode `x`, begun
      with `highest_reward` `h`. */
  predicate BookInv(cum: int, highest: int, recs: seq<StepRecord>, cps: seq<Checkpoint>,
                    start: Agent, h: int, x: nat, e: EpisodeInput, len: nat)
    requires |recs| <= |e.steps|
  {
    && cum == RewardSum(recs)
    && highest == Peak(h, recs) && highest >= h
    && StepsFaithful(recs, e, h, start.actions)
    && (forall k :: 0 <= k < |recs| ==> recs[k].reward == GazeboEnv.Reward(recs[k].action, k == len - 1))
    && cps == BestSaves(x, recs)
  }

  /** The agent's choices and its table follow the records. */
  predicate PolicyInv(agent: Agent, recs: seq<StepRecord>, start: Agent, e: EpisodeInput)
    requires Valid(start) && |recs| <= |e.steps|
  {
    agent.q == TableAfter(start, recs, e, |recs|) && Policy(start, recs, e)
  }

  /** What holds between steps. */
  predicate LoopInv(l: Loop, start: Agent, h: int, x: nat, e: EpisodeInput, len: nat) {
    && Valid(start)
    && WorldInv(l.agent, l.env, l.state, l.done, l.recs, start, e, len)
    && BookInv(l.cumulated, l.highest, l.recs, l.cps, start, h, x, e, len)
    && PolicyInv(l.agent, l.recs, start, e)
  }

  /** The environment and agent part of the invariant survives one step. */
  lemma WorldStep(l: Loop, agent': Agent, env': Gazebo, next: State, done: bool, r: StepRecord,
                  start: Agent, h: int, x: nat, e: EpisodeInput, len: nat)
    requires EpisodeLength(e).Some? && len == EpisodeLength(e).value
    requires WorldInv(l.agent, l.env, l.state, l.done, l.recs, start, e, len) && !l.done
    requires r.state == l.state
    requires env'.timeout == l.env.timeout + Miss(e.steps[|l.recs|].frame)
    requires env'.episodeHistory == l.env.episodeHistory + [r.action]
    requires done <==> env'.timeout > MaxMisses
    requires next == StateKey.Key(Observation(e.steps[|l.recs|].frame))
    requires agent'.epsilon == l.agent.epsilon && SameRates(agent', l.agent)
    requires agent'.q.Keys == l.agent.q.Keys + {(l.state, r.action)}
    ensures WorldInv(agent', env', if done then l.state else next, done, l.recs + [r], start, e, len)
    ensures next == KeyBefore(e, |l.recs| + 1)
  {
    var i := |l.recs|;
    TimeoutStep(e, i);
    EndStep(e, i);
    NextKey(e, i, next);
    ExtendTallies(l.recs, r, h, x);
    KeysExtend(start.q.Keys, Visited(l.recs), l.agent.q.Keys, agent'.q.Keys, (l.state, r.action));
  }

  /** The bookkeeping part of the invariant survives one step. */
  lemma BookStep(l: Loop, r: StepRecord, cps: seq<Checkpoint>, start: Agent, h: int, x: nat, e: EpisodeInput, len: nat)
    requires |l.recs| < len <= |e.steps|
    requires BookInv(l.cumulated, l.highest, l.recs, l.cps, start, h, x, e, len)
    requires r.cumulated == l.cumulated + r.reward
    requires r.newBest <==> l.highest < r.cumulated
    requires r.highest == (if r.newBest then r.cumulated else l.highest)
    requires cps == l.cps + (if r.newBest then [BestSoFar(x, |l.recs|, r.table)] else [])
    requires r.action in start.actions && r.state == KeyBefore(e, |l.recs|)
    requires r.reward == GazeboEnv.Reward(r.action, |l.recs| == len - 1)
    ensures BookInv(r.cumulated, r.highest, l.recs + [r], cps, start, h, x, e, len)
  {
    ExtendFaithful(l.recs, r, e, h, x, start.actions);
    RewardsExtend(l.recs, r, |l.recs|, len);
  }

  /** One iteration of the inner loop: step, accumulate the reward, write a
      "best so far" checkpoint of the table (before learning) on a new
      record, learn, and move to the next state unless the step ended the
      episode. */
  method Advance(l: Loop, start: Agent, h: int, x: nat, e: EpisodeInput, len: nat) returns (l': Loop)
    requires Valid(start) && EpisodeReady(e, |start.actions|) && len == EpisodeLength(e).value
    requires LoopInv(l, start, h, x, e, len) && !l.done
    ensures LoopInv(l', start, h, x, e, len) && |l'.recs| == |l.recs| + 1
  {
    var i := |l.recs|;
    var action, env', reward, done, next, agent';
    action, env', reward, done, next, agent' := Transition(l.agent, l.env, l.state, e.steps[i]);
    var cum := l.cumulated + reward;
    var best := l.highest < cum;
    var highest' := if best then cum else l.highest;
    var cps := l.cps + (if best then [BestSoFar(x, i, l.agent.q)] else []);
    var r := StepRecord(l.state, action, l.agent.q, reward, cum, highest', best);
    EndStep(e, i);
    WorldStep(l, agent', env', next, done, r, start, h, x, e, len);
    BookStep(l, r, cps, start, h, x, e, len);
    PolicyStep(start, l.recs, r, e, l.agent, agent', next);
    l' := Loop(agent', env', if done then l.state else next, cum, highest', l.recs + [r], cps, done);
  }

  /** One pass of the episode body: reset, decay ε, then step until `done`. */
  method RunEpisode(ag: Agent, env: Gazebo, highest: int, x: nat, e: EpisodeInput)
    returns (ag': Agent, env': Gazebo, highest': int, recs: seq<StepRecord>, cps: seq<Checkpoint>)
    requires Valid(ag) && EpisodeReady(e, |ag.actions|)
    ensures Played(highest, recs, e, Started(ag), ag'.q) && 1 <= |recs|
    ensures highest' == Peak(highest, recs) && highest' >= highest
    ensures ag'.epsilon == Decay(ag.epsilon) && SameRates(ag', ag)
    ensures ag'.q.Keys == ag.q.Keys + Visited(recs)
    ensures env'.episodeHistory == Actions(recs) && env'.timeout > MaxMisses
    ensures cps == BestSaves(x, recs)
  {
    var len := EpisodeLength(e).value;
    var rs := Reset(env, e.first);
    var agent := ag;
    if agent.epsilon > EpsilonFloor {
      agent := agent.(epsilon := agent.epsilon * EpsilonDiscount);
    }
    var start := Started(ag);
    assert agent == start;
    var l := Loop(agent, rs.env, StateKey.Key(rs.state), 0, highest, [], [], false);
    LoopStart(start, rs.env, highest, x, e, len);
    while !l.done
      invariant LoopInv(l, start, highest, x, e, len)
      decreases len - |l.recs|
    {
      l := Advance(l, start, highest, x, e, len);
    }
    LoopEnd(l, start, highest, x, e, len);
    ag', env', highest', recs, cps := l.agent, l.env, l.highest, l.recs, l.cps;
  }

  /** Before the first step, with nothing played yet, the invariant holds. */
  lemma LoopStart(start: Agent, env: Gazebo, h: int, x: nat, e: EpisodeInput, len: nat)
    requires Valid(start) && EpisodeLength(e) == Some(len)
    requires env.timeout == Miss(e.first) && env.episodeHistory == []
    ensures LoopInv(Loop(start, env, KeyBefore(e, 0), 0, h, [], [], false), start, h, x, e, len)
  {
    assert e.steps[..0] == [];
  }

  /** Once `done` is set the episode has been played to its end. */
  lemma LoopEnd(l: Loop, start: Agent, h: int, x: nat, e: EpisodeInput, len: nat)
    requires EpisodeLength(e) == Some(len) && LoopInv(l, start, h, x, e, len) && l.done
    ensures Played(h, l.recs, e, start, l.agent.q) && 1 <= |l.recs|
    ensures l.highest == Peak(h, l.recs) && l.highest >= h
    ensures l.agent.epsilon == start.epsilon && SameRates(l.agent, start)
    ensures l.agent.q.Keys == start.q.Keys + Visited(l.recs)
    ensures l.env.episodeHistory == Actions(l.recs) && l.env.timeout > MaxMisses
    ensures l.cps == BestSaves(x, l.recs)
  {
  }

  // ----------------------------------------------------------- whole run

  /** An episode played faithfully on its inputs by an agent that began it
      as `start`: it lasted until the frames ended it, its bookkeeping
      follows the loop, every step earned the action's reward except the
      last, which earned -200, every action is the one `chooseAction`
      returned, and the table it left is what `learn` made of the steps. */
  predicate Played(h: int, recs: seq<StepRecord>, e: EpisodeInput, start: Agent, final: QTable) {
    && Valid(start)
    && EpisodeLength(e) == Some(|recs|)
    && |recs| <= |e.steps|
    && StepsFaithful(recs, e, h, start.actions)
    && (forall k :: 0 <= k < |recs| ==> recs[k].reward == GazeboEnv.Reward(recs[k].action, k == |recs| - 1))
    && Policy(start, recs, e)
    && final == TableAfter(start, recs, e, |recs|)
  }

  /** `highest_reward` after the episodes: 0 before the first one, then
      carried from each episode into the next. */
  function HighestAfter(eps: seq<EpisodeRecord>): int
  {
    if |eps| == 0 then 0 else Peak(eps[|eps| - 1].startHighest, eps[|eps| - 1].steps)
  }

  /** Each episode starts from the `highest_reward` the previous ones left. */
  predicate Chained(eps: seq<EpisodeRecord>)
  {
    |eps| > 0 ==> Chained(eps[..|eps| - 1]) && eps[|eps| - 1].startHighest == HighestAfter(eps[..|eps| - 1])
  }

  /** The agent after the episodes: `ag` before the first one, then the
      last episode's agent holding the table it left. */
  function AgentAfter(ag: Agent, eps: seq<EpisodeRecord>): Agent
  {
    if |eps| == 0 then ag else eps[|eps| - 1].agent.(q := eps[|eps| - 1].final)
  }

  /** Each episode begins with the agent the previous ones left, ε decayed. */
  predicate AgentChain(ag: Agent, eps: seq<EpisodeRecord>)
  {
    |eps| > 0 ==> AgentChain(ag, eps[..|eps| - 1]) && eps[|eps| - 1].agent == Started(AgentAfter(ag, eps[..|eps| - 1]))
  }

  /** The (state, action) pairs learned from over all episodes. */
  function AllVisited(eps: seq<EpisodeRecord>): set<(State, Action)>
  {
    if |eps| == 0 then {} else AllVisited(eps[..|eps| - 1]) + Visited(eps[|eps| - 1].steps)
  }

  /** The number of `saveQ` calls over all episodes. */
  function Saves(eps: seq<EpisodeRecord>): nat
  {
    if |eps| == 0 then 0
    else Saves(eps[..|eps| - 1]) + CountBest(eps[|eps| - 1].steps) + (if eps[|eps| - 1].periodic then 1 else 0)
  }

  /** The `saveQ` events of episode `x`, in order: its "best so far" ones,
      then the periodic one of the learned table if the episode called for it. */
  function EpisodeSaves(x: nat, rec: EpisodeRecord): seq<Checkpoint>
  {
    BestSaves(x, rec.steps) + (if rec.periodic then [Periodic(x, rec.final)] else [])
  }

  /** The `saveQ` events over all episodes, in order. */
  function AllSaves(eps: seq<EpisodeRecord>): seq<Checkpoint>
  {
    if |eps| == 0 then [] else AllSaves(eps[..|eps| - 1]) + EpisodeSaves(|eps| - 1, eps[|eps| - 1])
  }

  /** Everything the training run leaves behind. */
  datatype RunResult = RunResult(agent: Agent, env: Gazebo, highest: int, lastTimeSteps: seq<int>,
                                 episodes: seq<EpisodeRecord>, checkpoints: seq<Checkpoint>)

  /** The episode records so far, against the inputs they were played on. */
  predicate EpisodesInv(eps: seq<EpisodeRecord>, steps: seq<int>, ag: Agent, inputs: seq<EpisodeInput>) {
    && |eps| == |steps| <= |inputs|
    && (forall x :: 0 <= x < |eps| ==> Played(eps[x].startHighest, eps[x].steps, inputs[x], eps[x].agent, eps[x].final))
    && (forall x :: 0 <= x < |eps| ==> steps[x] == |eps[x].steps|)
    && Chained(eps)
    && AgentChain(ag, eps)
    && (forall x :: 0 <= x < |eps| ==> (eps[x].periodic <==> PlotDue(x)))
  }

  /** What holds after the first `|r.episodes|` episodes. */
  predicate TrainInv(r: RunResult, ag: Agent, inputs: seq<EpisodeInput>) {
    && EpisodesInv(r.episodes, r.lastTimeSteps, ag, inputs)
    && r.checkpoints == AllSaves(r.episodes)
    && r.highest == HighestAfter(r.episodes) && r.highest >= 0
    && r.agent == AgentAfter(ag, r.episodes)
    && r.agent.epsilon == Decayed(ag.epsilon, |r.episodes|) && SameRates(r.agent, ag)
    && r.agent.q.Keys == ag.q.Keys + AllVisited(r.episodes)
    && (|r.episodes| > 0 ==> r.env.episodeHistory == Actions(r.episodes[|r.episodes| - 1].steps))
  }

  lemma ExtendEpisodes(eps: seq<EpisodeRecord>, steps: seq<int>, rec: EpisodeRecord, ag: Agent, inputs: seq<EpisodeInput>)
    requires EpisodesInv(eps, steps, ag, inputs) && |eps| < |inputs|
    requires Played(rec.startHighest, rec.steps, inputs[|eps|], rec.agent, rec.final)
    requires rec.startHighest == HighestAfter(eps) && rec.agent == Started(AgentAfter(ag, eps))
    requires rec.periodic <==> PlotDue(|eps|)
    ensures EpisodesInv(eps + [rec], steps + [|rec.steps|], ag, inputs)
  {
    ExtendPlayed(eps, rec, inputs);
    ExtendLengths(eps, steps, rec);
    ExtendPeriodic(eps, rec);
    ExtendChains(ag, eps, rec);
  }

  lemma ExtendChains(ag: Agent, eps: seq<EpisodeRecord>, rec: EpisodeRecord)
    requires Chained(eps) && rec.startHighest == HighestAfter(eps)
    requires AgentChain(ag, eps) && rec.agent == Started(AgentAfter(ag, eps))
    ensures Chained(eps + [rec]) && AgentChain(ag, eps + [rec])
  {
    assert (eps + [rec])[..|eps|] == eps;
  }

  lemma ExtendPlayed(eps: seq<EpisodeRecord>, rec: EpisodeRecord, inputs: seq<EpisodeInput>)
    requires |eps| < |inputs|
    requires forall x :: 0 <= x < |eps| ==> Played(eps[x].startHighest, eps[x].steps, inputs[x], eps[x].agent, eps[x].final)
    requires Played(rec.startHighest, rec.steps, inputs[|eps|], rec.agent, rec.final)
    ensures forall x :: 0 <= x < |eps| + 1 ==>
      Played((eps + [rec])[x].startHighest, (eps + [rec])[x].steps, inputs[x], (eps + [rec])[x].agent, (eps + [rec])[x].final)
  {
  }

  lemma ExtendLengths(eps: seq<EpisodeRecord>, steps: seq<int>, rec: EpisodeRecord)
    requires |eps| == |steps| && forall x :: 0 <= x < |eps| ==> steps[x] == |eps[x].steps|
    ensures forall x :: 0 <= x < |eps| + 1 ==> (steps + [|rec.steps|])[x] == |(eps + [rec])[x].steps|
  {
  }

  lemma ExtendPeriodic(eps: seq<EpisodeRecord>, rec: EpisodeRecord)
    requires forall x :: 0 <= x < |eps| ==> (eps[x].periodic <==> PlotDue(x))
    requires rec.periodic <==> PlotDue(|eps|)
    ensures forall x :: 0 <= x < |eps| + 1 ==> ((eps + [rec])[x].periodic <==> PlotDue(x))
  {
  }

  lemma ExtendTotals(ag: Agent, eps: seq<EpisodeRecord>, rec: EpisodeRecord)
    ensures HighestAfter(eps + [rec]) == Peak(rec.startHighest, rec.steps)
    ensures AllVisited(eps + [rec]) == AllVisited(eps) + Visited(rec.steps)
    ensures AllSaves(eps + [rec]) == AllSaves(eps) + EpisodeSaves(|eps|, rec)
    ensures AgentAfter(ag, eps + [rec]) == rec.agent.(q := rec.final)
  {
    assert (eps + [rec])[..|eps|] == eps;
  }

  /** The running maximum never falls below its start. */
  lemma {:induction false} PeakAtLeast(h: int, recs: seq<StepRecord>)
    ensures Peak(h, recs) >= h
  {
    if |recs| > 0 {
      PeakAtLeast(h, recs[..|recs| - 1]);
    }
  }

  lemma ExtendRun(r: RunResult, rec: EpisodeRecord, agent': Agent, env': Gazebo, cps: seq<Checkpoint>,
                  ag: Agent, inputs: seq<EpisodeInput>)
    requires TrainInv(r, ag, inputs) && |r.episodes| < |inputs|
    requires Played(rec.startHighest, rec.steps, inputs[|r.episodes|], rec.agent, rec.final)
    requires rec.startHighest == r.highest && rec.agent == Started(r.agent)
    requires rec.periodic <==> PlotDue(|r.episodes|)
    requires agent'.q == rec.final && agent'.epsilon == Decay(r.agent.epsilon) && SameRates(agent', r.agent)
    requires agent'.q.Keys == r.agent.q.Keys + Visited(rec.steps)
    requires env'.episodeHistory == Actions(rec.steps)
    requires cps == EpisodeSaves(|r.episodes|, rec)
    ensures TrainInv(RunResult(agent', env', Peak(r.highest, rec.steps), r.lastTimeSteps + [|rec.steps|],
                               r.episodes + [rec], r.checkpoints + cps), ag, inputs)
  {
    var eps := r.episodes + [rec];
    ExtendEpisodes(r.episodes, r.lastTimeSteps, rec, ag, inputs);
    ExtendTotals(ag, r.episodes, rec);
    ExtendAgent(r.agent, agent', ag, r.episodes, rec);
    assert HighestAfter(eps) == Peak(r.highest, rec.steps) >= 0 by {
      PeakAtLeast(r.highest, rec.steps);
    }
    assert eps[|eps| - 1] == rec;
    assert agent' == rec.agent.(q := rec.final);
  }

  lemma ExtendAgent(a: Agent, agent': Agent, ag: Agent, eps: seq<EpisodeRecord>, rec: EpisodeRecord)
    requires a.epsilon == Decayed(ag.epsilon, |eps|) && SameRates(a, ag)
    requires a.q.Keys == ag.q.Keys + AllVisited(eps)
    requires agent'.epsilon == Decay(a.epsilon) && SameRates(agent', a)
    requires agent'.q.Keys == a.q.Keys + Visited(rec.steps)
    ensures agent'.epsilon == Decayed(ag.epsilon, |eps| + 1) && SameRates(agent', ag)
    ensures agent'.q.Keys == ag.q.Keys + AllVisited(eps + [rec])
  {
    ExtendTotals(ag, eps, rec);
  }

  /** One iteration of the outer loop: play episode `x`, then, every fifth
      episode after the first, save the learned table and refresh the plot. */
  method NextEpisode(r: RunResult, ag: Agent, inputs: seq<EpisodeInput>) returns (r': RunResult)
    requires Valid(ag) && forall x :: 0 <= x < |inputs| ==> EpisodeReady(inputs[x], |ag.actions|)
    requires TrainInv(r, ag, inputs) && |r.episodes| < |inputs|
    ensures TrainInv(r', ag, inputs) && |r'.episodes| == |r.episodes| + 1
  {
    var x := |r.episodes|;
    var agent', env', highest', recs, cps := RunEpisode(r.agent, r.env, r.highest, x, inputs[x]);
    var periodic := PlotDue(x);
    var rec := EpisodeRecord(Started(r.agent), r.highest, recs, agent'.q, periodic);
    var saves := cps + (if periodic then [Periodic(x, agent'.q)] else []);
    ExtendRun(r, rec, agent', env', saves, ag, inputs);
    r' := RunResult(agent', env', highest', r.lastTimeSteps + [|recs|], r.episodes + [rec], r.checkpoints + saves);
  }

  /** What one episode's `saveQ` events are: "best so far" events carry a
      step of the episode that beat the record and the table that step chose
      with, a periodic one carries the learned table, and there is one of
      each kind exactly where the episode calls for it. */
  lemma EpisodeSavesExact(x: nat, rec: EpisodeRecord)
    ensures forall c :: c in EpisodeSaves(x, rec) ==>
      (&& c.episode == x
       && (c.Periodic? ==> rec.periodic && c.table == rec.final)
       && (c.BestSoFar? ==> c.step < |rec.steps| && rec.steps[c.step].newBest && c.table == rec.steps[c.step].table))
    ensures rec.periodic <==> Periodic(x, rec.final) in EpisodeSaves(x, rec)
    ensures forall k :: 0 <= k < |rec.steps| ==>
      (rec.steps[k].newBest <==> BestSoFar(x, k, rec.steps[k].table) in EpisodeSaves(x, rec))
    ensures |EpisodeSaves(x, rec)| == CountBest(rec.steps) + (if rec.periodic then 1 else 0)
  {
    BestSavesExact(x, rec.steps);
    var more := if rec.periodic then [Periodic(x, rec.final)] else [];
    assert Periodic(x, rec.final) !in BestSaves(x, rec.steps);
    forall k | 0 <= k < |rec.steps|
      ensures rec.steps[k].newBest <==> BestSoFar(x, k, rec.steps[k].table) in EpisodeSaves(x, rec)
    {
      assert BestSoFar(x, k, rec.steps[k].table) !in more;
    }
  }

  /** Every `saveQ` event of the run is labelled with an episode that was
      played and describes that episode's records. */
  lemma {:induction false} SavesLabelled(eps: seq<EpisodeRecord>)
    ensures forall c :: c in AllSaves(eps) ==>
      (&& c.episode < |eps|
       && (c.Periodic? ==> eps[c.episode].periodic && c.table == eps[c.episode].final)
       && (c.BestSoFar? ==> c.step < |eps[c.episode].steps| && eps[c.episode].steps[c.step].newBest
                            && c.table == eps[c.episode].steps[c.step].table))
  {
    if |eps| > 0 {
      var n := |eps| - 1;
      var p := eps[..n];
      SavesLabelled(p);
      EpisodeSavesExact(n, eps[n]);
      assert AllSaves(eps) == AllSaves(p) + EpisodeSaves(n, eps[n]);
      forall c | c in AllSaves(eps)
        ensures c.episode < |eps|
        ensures c.Periodic? ==> eps[c.episode].periodic && c.table == eps[c.episode].final
        ensures c.BestSoFar? ==> c.step < |eps[c.episode].steps| && eps[c.episode].steps[c.step].newBest
                                 && c.table == eps[c.episode].steps[c.step].table
      {
        if c in AllSaves(p) {
          assert eps[c.episode] == p[c.episode];
        }
      }
    }
  }

  /** Every periodic and every "best so far" event the episodes call for is
      in the run's events. */
  lemma {:induction false} SavesComplete(eps: seq<EpisodeRecord>)
    ensures forall x :: 0 <= x < |eps| ==> (eps[x].periodic <==> Periodic(x, eps[x].final) in AllSaves(eps))
    ensures forall x, k :: 0 <= x < |eps| && 0 <= k < |eps[x].steps| ==>
      (eps[x].steps[k].newBest <==> BestSoFar(x, k, eps[x].steps[k].table) in AllSaves(eps))
  {
    if |eps| > 0 {
      var n := |eps| - 1;
      var p := eps[..n];
      SavesComplete(p);
      SavesLabelled(p);
      EpisodeSavesExact(n, eps[n]);
      assert AllSaves(eps) == AllSaves(p) + EpisodeSaves(n, eps[n]);
      forall x | 0 <= x < |eps|
        ensures eps[x].periodic <==> Periodic(x, eps[x].final) in AllSaves(eps)
      {
        if x < n {
          assert eps[x] == p[x];
          assert Periodic(x, eps[x].final) !in EpisodeSaves(n, eps[n]);
        } else {
          assert Periodic(x, eps[x].final) !in AllSaves(p);
        }
      }
      forall x, k | 0 <= x < |eps| && 0 <= k < |eps[x].steps|
        ensures eps[x].steps[k].newBest <==> BestSoFar(x, k, eps[x].steps[k].table) in AllSaves(eps)
      {
        if x < n {
          assert eps[x] == p[x];
          assert BestSoFar(x, k, eps[x].steps[k].table) !in EpisodeSaves(n, eps[n]);
        } else {
          assert BestSoFar(x, k, eps[x].steps[k].table) !in AllSaves(p);
        }
      }
    }
  }

  /** The events are as many as `Saves` counts. */
  lemma {:induction false} SavesCount(eps: seq<EpisodeRecord>)
    ensures |AllSaves(eps)| == Saves(eps)
  {
    if |eps| > 0 {
      var n := |eps| - 1;
      SavesCount(eps[..n]);
      EpisodeSavesExact(n, eps[n]);
    }
  }

  /** The training run: for each episode, play it, then save the table and
      refresh the plot every fifth episode after the first; `highest_reward`
      and the agent carry over from one episode to the next, and the number
      of steps of each is appended to `last_time_steps`. */
  method Train(ag: Agent, env: Gazebo, inputs: seq<EpisodeInput>) returns (r: RunResult)
    requires Valid(ag)
    requires forall x :: 0 <= x < |inputs| ==> EpisodeReady(inputs[x], |ag.actions|)
    ensures |r.episodes| == |r.lastTimeSteps| == |inputs|
    ensures forall x :: 0 <= x < |inputs| ==>
      Played(r.episodes[x].startHighest, r.episodes[x].steps, inputs[x], r.episodes[x].agent, r.episodes[x].final)
    ensures AgentChain(ag, r.episodes) && r.agent == AgentAfter(ag, r.episodes)
    ensures forall x :: 0 <= x < |inputs| ==> r.lastTimeSteps[x] == |r.episodes[x].steps| >= 1
    ensures Chained(r.episodes)
    ensures forall x :: 0 <= x < |inputs| ==> (r.episodes[x].periodic <==> PlotDue(x))
    ensures r.highest == HighestAfter(r.episodes) && r.highest >= 0
    ensures r.agent.epsilon == Decayed(ag.epsilon, |inputs|) && SameRates(r.agent, ag)
    ensures r.agent.q.Keys == ag.q.Keys + AllVisited(r.episodes)
    ensures r.checkpoints == AllSaves(r.episodes) && |r.checkpoints| == Saves(r.episodes)
    ensures forall c :: c in r.checkpoints ==> c.episode < |inputs|
    ensures forall x :: 0 <= x < |inputs| ==>
      (PlotDue(x) <==> exists c :: c in r.checkpoints && c.Periodic? && c.episode == x)
    ensures forall c :: c in r.checkpoints && c.Periodic? ==> c.table == r.episodes[c.episode].final
    ensures forall x, k :: 0 <= x < |inputs| && 0 <= k < |r.episodes[x].steps| ==>
      (r.episodes[x].steps[k].newBest <==> BestSoFar(x, k, r.episodes[x].steps[k].table) in r.checkpoints)
    ensures forall c :: c in r.checkpoints && c.BestSoFar? ==>
      c.step < |r.episodes[c.episode].steps| && r.episodes[c.episode].steps[c.step].newBest
  {
    r := RunResult(ag, env, 0, [], [], []);
    while |r.episodes| < |inputs|
      invariant TrainInv(r, ag, inputs)
      decreases |inputs| - |r.episodes|
    {
      r := NextEpisode(r, ag, inputs);
    }
    SavesLabelled(r.episodes);
    SavesComplete(r.episodes);
    SavesCount(r.episodes);
    forall x | 0 <= x < |inputs|
      ensures PlotDue(x) <==> exists c :: c in r.checkpoints && c.Periodic? && c.episode == x
    {
      if PlotDue(x) {
        assert Periodic(x, r.episodes[x].final) in r.checkpoints;
      }
    }
  }
}

=== FILE: wrappers.dfy ===
/** Optional values, used where the original program returns "nothing found"
    (no column matched, an empty list of episode lengths). */
module Wrappers {

  datatype Option<+T> = None | Some(value: T)
}
